=== FILE: README.md ===
# Yandex smart-home Stream Deck plugin: a Dafny model

This project models the core of a Stream Deck plugin that drives Yandex
smart-home scenarios and devices. It covers three parts, each as pure
functions from a state, an inbound frame and a network oracle to a new state
plus the commands sent to the host.

- **The plugin runtime** (`plugin/utils/plugin.js`). This part includes:
  - the `message` dispatcher, with its one-shot request for global settings,
    its action-key extraction and its three routes (the action's handler, the
    global-settings overwrite, and the plugin method named by the event);
  - `setGlobalSettings` and the outbound frame builders;
  - the `Actions` lifecycle (`willAppear`, `didReceiveSettings`,
    `willDisappear`, `propertyInspectorDidAppear`);
  - `EventEmitter`.
- **The `control` action** (`plugin/index.js`). This part includes:
  - the status classification of `yandexRequest`, `getDeviceState` and the
    `toggleDevice` body;
  - the handlers `_willAppear`, `_willDisappear`, `updateButtonState`,
    `keyUp`, `sendToPlugin` and `handleFetchData`, together with the polling
    timers.
- **The icon classifier** (`plugin/utils/icons.js`): `getIcon`, which is a
  first-match keyword classifier over the lower-cased device type, and the
  data-URI prefix of `wrap`.

Modules:

| file | module | contents |
|---|---|---|
| js.dfy | `Js` | JSON values plus `undefined`, truthiness, property reads that throw on null, `Result` |
| icons.dfy | `Icons` | `getIcon`, its colour and glyph chains as first-match rule tables, `wrap` |
| api.dfy | `Api` | reply classification, device-state reading, the toggle body, account lists |
| host.dfy | `Host` | host commands, their wire frames, the focused inspector panel |
| actions.dfy | `Actions` | the `Actions` base-class settings map and inspector focus |
| emitter.dfy | `Emitter` | `EventEmitter` |
| control.dfy | `Control` | the `control` action and its polling timers |
| dispatch.dfy | `Dispatch` | the plugin's `message` handler and sessions of messages |

How the model treats the runtime:

- **Throws.** JavaScript exceptions are `Err` values. A synchronous throw
  inside the dispatcher's `try` stops the routes after it. Such throws come
  from destructuring a missing payload, or from reading `payload.settings`
  or `payload.type` on null. An `async` handler's rejection is only logged,
  so it emits nothing.
- **Network.** Each request the plugin makes is answered by an oracle
  `net: Api.Request -> Api.Reply`. Handlers also return the requests they
  made, in order.
- **Timers.** The polling timers are a registry. `owner` holds the
  `intervals` entries and `polls` holds the live timers, each with the
  context it refreshes.

## Model

| member | source | states |
|---|---|---|
| Js.Prop | plugin/utils/plugin.js:78-80 | reading a property throws exactly when the value is null or undefined, and otherwise yields the field |
| Api.Classify | plugin/index.js:23-38 | success iff the reply has a status in 200..299. On success an empty or unparseable body gives null, otherwise the parsed body. Other statuses reject with their status and body, and transport errors reject as network failures |
| Api.Message | plugin/index.js:31 | a status failure's message starts with `Status Code: ` and ends with the body. A network failure's message is its cause |
| Api.StatusBoundaries | plugin/index.js:24 | 299 succeeds; 199 and 300 fail |
| Api.FindOnOff | plugin/index.js:71 | finds the first capability of type on_off, or none when no entry has it. It throws when a null entry is reached first |
| Api.AnyOnOff | plugin/index.js:209 | `some` answers true only when an on/off entry exists and false only when none does. It throws only when some entry is null, and never when none is |
| Api.DeviceStateOf | plugin/index.js:68-80 | no state when the data or its capabilities are falsy. A found state is the first on/off entry's `state.value` and the device's `type`. An array of capabilities gives no state iff no entry is null or on/off. When the first on/off entry has a non-null `state`, the read succeeds with that entry's value. It throws a TypeError when the capabilities are truthy but not an array, when a null entry comes before the first on/off one, and when that entry's `state` is null |
| Api.ReadState | plugin/index.js:68-70 | a transport error fails as a network failure and a status outside 200..299 fails with that status and body. A successful empty or unparseable reply gives no state, and a successful parsed reply is read by `DeviceStateOf` |
| Api.EmptyReplyHasNoState | plugin/index.js:24-28 | a successful empty or unparseable reply reads as "no state", not as a failure |
| Api.ToggleRoundTrip | plugin/index.js:55-66 | the toggle body holds exactly one device with the given id and one on_off action with the requested value |
| Api.MapEntries | plugin/index.js:207 | projecting to `{id, name}` succeeds iff no item is null, and then yields the projection of every item in order |
| Api.AnyOnOffIsFind | plugin/index.js:209 | the filter's `some` test agrees with `getDeviceState`'s `find`, both on whether it throws and on what it finds |
| Api.KeepControllable | plugin/index.js:208-210 | the devices kept, in order and projected, are exactly those of the reference filter `Kept`. It succeeds iff every device is non-null and has an array of capabilities with no null entry before its first on/off one |
| Api.KeptMembership | plugin/index.js:209 | a device is kept iff it is in the input and lists an on_off capability |
| Api.KeptAppend | plugin/index.js:208-210 | the filter distributes over concatenation, so the original order is kept |
| Api.AccountLists | plugin/index.js:205-210 | on success, scenarios are projected and devices are filtered then projected. It succeeds iff the account is non-null, both lists are arrays, no scenario is null and the filter gets through every device |
| Api.FilterExample | plugin/index.js:208-210 | of an on_off device and a range-only device, only the first is kept |
| Host.ToInspector | plugin/utils/plugin.js:160-167 | a non-empty explicit action or context wins; otherwise the focused panel's is used |
| Host.FrameRoundTrip | plugin/utils/plugin.js:94-174 | every outbound frame can be read back into the command it encodes |
| Host.ImageRoundTrip | plugin/utils/plugin.js:121-129 | a `setImage` frame determines its context and icon |
| Host.InspectorFrameRoundTrip | plugin/utils/plugin.js:160-167 | a `sendToPropertyInspector` frame determines its action, context and payload |
| Actions.Appear | plugin/utils/plugin.js:195-202 | the context's settings are the default overridden field by field by the pushed settings; other contexts are unchanged |
| Actions.Replace | plugin/utils/plugin.js:204-208 | the context's settings become the pushed value wholesale; other contexts are unchanged |
| Actions.Forget | plugin/utils/plugin.js:210-214 | the context is removed and every other context keeps its settings |
| Actions.ReplaceForgetsDefault | plugin/utils/plugin.js:200-206 | settings pushed after an appear keep nothing the appear merged in |
| Actions.AppearThenForget | plugin/utils/plugin.js:200-213 | an appear followed by a disappear leaves the other contexts as before, and leaves the map as before if the context was new |
| Actions.InspectorFallsBackToFocus | plugin/utils/plugin.js:160-193 | with no explicit target, a panel message goes to the action and context whose panel appeared last |
| Emitter.Subscribe | plugin/utils/plugin.js:222-227 | the event's list gains the listener at its end, and other events are untouched |
| Emitter.Without | plugin/utils/plugin.js:231 | removes every occurrence of the listener, keeps the multiset of everything else, and changes nothing when the listener is absent |
| Emitter.Unsubscribe | plugin/utils/plugin.js:229-232 | an event with no list is left alone. Otherwise the event's list becomes `Without` of it, so the listener no longer occurs and the others keep their order. Other events are untouched |
| Emitter.Emit | plugin/utils/plugin.js:234-237 | an unknown event calls no listener |
| Emitter.SubscribeThenEmit | plugin/utils/plugin.js:226-236 | a newly subscribed listener is called last, after the existing ones in order |
| Emitter.UnsubscribeUndoesSubscribe | plugin/utils/plugin.js:222-232 | unsubscribing a listener that was not present undoes its subscription |
| Emitter.WithoutAppendDistributes | plugin/utils/plugin.js:231 | removal keeps the relative order of the listeners that stay |
| Icons.Lower | plugin/utils/icons.js:49 | lower-casing keeps the length and maps each character to its lower case |
| Icons.LowerIdempotent | plugin/utils/icons.js:49 | lower-casing twice is lower-casing once |
| Icons.ContainsIsSubstring | plugin/utils/icons.js:57-81 | `includes` holds iff the keyword occurs at some position |
| Icons.VacuumContainsAc | plugin/utils/icons.js:72-77 | every type mentioning "vacuum" mentions "ac" |
| Icons.RobotUnreachable | plugin/utils/icons.js:72-77 | the glyph chain never selects the robot |
| Icons.BackgroundIsFirstMatch | plugin/utils/icons.js:54-62 | when on, the colour chain equals the first-match table over the six keyword groups, defaulting to amber |
| Icons.GlyphIsFirstMatch | plugin/utils/icons.js:66-81 | the glyph chain equals the first-match table over the fourteen keyword groups, defaulting to the bolt |
| Icons.FirstMatchAt | plugin/utils/icons.js:57-81 | first-match selection picks the rule at the first index whose keywords match |
| Icons.FirstMatchNone | plugin/utils/icons.js:66 | with no matching rule, the fallback is chosen |
| Icons.GetIcon | plugin/utils/icons.js:48-84 | when off, the background is `#1a1a1a` for any type. When on, it is the first matching colour group. The glyph is the first matching glyph group of the lower-cased type, any "light" type gets the light glyph, and the robot never appears |
| Icons.FallbackIcon | plugin/utils/icons.js:52-66 | a type whose lower case matches no keyword of either chain gets the bolt, on amber when on and on `#1a1a1a` when off |
| Icons.GlyphIgnoresState | plugin/utils/icons.js:66-81 | the glyph depends on the type only |
| Icons.CaseInsensitive | plugin/utils/icons.js:49 | `getIcon(T, b)` equals `getIcon(lower(T), b)` |
| Icons.Wrap | plugin/utils/icons.js:9 | every icon's data URI starts with `data:image/svg+xml;base64,` |
| Icons.UnwrapWrap | plugin/utils/icons.js:3-10 | the data URI determines the glyph and background it was made from |
| Control.PollersOfOwner | plugin/index.js:106-114 | under the registry invariant, a context has exactly the live timer `intervals` holds for it, or none |
| Control.StartPolling | plugin/index.js:106-114 | the context gets a live timer; its old timer, if any, is cleared unless its id is reused; every other context keeps its `intervals` entry |
| Control.StopPolling | plugin/index.js:117-123 | the context loses its `intervals` entry and its old timer is cleared; every other context keeps its entry |
| Control.StartPollingKeepsTimersOk | plugin/index.js:106-114 | an appear keeps the registry consistent and leaves exactly one live timer for the context, replacing any earlier one. Every other context keeps its timers |
| Control.StopPollingKeepsTimersOk | plugin/index.js:117-123 | a disappear keeps the registry consistent and leaves no live timer for the context. Every other context keeps its timers |
| Control.PollStart | plugin/index.js:125-133 | a refresh sends a read iff the settings exist, the id is truthy, the type is `device` and the token is truthy. The read names that token and id |
| Control.PollFinish | plugin/index.js:133-144 | after a read, the button gets its state iff the read yielded a device state. The state shown is 1 iff the device is on, and a failure emits nothing. The icon follows iff the type is a string, and it is `getIcon` of that type and the state |
| Control.Refresh | plugin/index.js:125-145 | a refresh sends only state and icon commands for its own context. It makes no request when a guard fails; otherwise it reads the configured device with the token and shows what `PollFinish` makes of the reply |
| Control.RefreshNeverAlerts | plugin/index.js:142-144 | no refresh ever shows an alert or a check mark, whatever the network does |
| Control.LateCompletionStillWrites | plugin/index.js:126-141 | a read that settles after the button disappeared still writes the button's state |
| Control.AppearEffects | plugin/index.js:96-103 | a device button first shows the placeholder icon, then exactly the commands and requests of one refresh. Any other button gets nothing |
| Control.PlaceholderIconIsGetIcon | plugin/index.js:99 | the placeholder is what `getIcon` gives the generic device type when off |
| Control.WillAppear | plugin/index.js:90-115 | the context's settings are the default overridden field by field by the pushed ones, and other contexts keep theirs. The context gets a timer and other contexts keep theirs. Under the registry invariant the invariant is kept and the context has exactly one live timer. The appear effects follow |
| Control.WillDisappear | plugin/index.js:117-123 | the context's settings and timer entry are dropped, and every other context keeps both. Under the registry invariant the invariant is kept and no live timer refreshes the context |
| Control.DidReceiveSettings | plugin/utils/plugin.js:204-208 | the context's settings become the pushed value, other contexts keep theirs, and the timers are untouched |
| Control.KeyUp | plugin/index.js:147-180 | a missing settings or global settings object does nothing. Otherwise a missing token or id alerts with no request. A scenario runs once and shows the check mark iff the run succeeded, and the alert otherwise. A device goes to `PressDevice`, and any other type does nothing. Each state shown follows a successful read and a successful write of that state's negation. Only commands for the pressed button are sent |
| Control.PressDevice | plugin/index.js:164-174 | the device is read first; a failed read alerts and a null read emits nothing, and neither makes any request after the read. A read state is followed by exactly one toggle to its negation. A failed toggle alerts. A successful one shows the negated state and then that state's icon for a string type, or the alert when `getIcon` throws on any other type. A state is shown only after a successful toggle |
| Control.PressAgreesWithRefresh | plugin/index.js:125-174 | after a successful press, a refresh that reads the toggled state shows exactly what the press showed |
| Control.PressTurnsDeviceOn | plugin/index.js:164-174 | pressing a device that reads as off sends the read and a toggle to on, then shows state 1 and the on icon |
| Control.PressWithoutTokenAlerts | plugin/index.js:151-157 | without a token, a press alerts and makes no request |
| Control.Merge | plugin/index.js:186-190 | the panel's fields override the current settings field by field; other contexts are unchanged |
| Control.MergeIdempotent | plugin/index.js:186-190 | applying the same update twice equals applying it once |
| Control.UpdateSettingsIdempotent | plugin/index.js:185-196 | repeating an `updateSettings` message leaves the same settings |
| Control.FetchData | plugin/index.js:202-224 | one account request and one panel message to the requesting context. It is a data list iff the request and the list extraction succeed. Otherwise it is an error carrying the message of whichever step failed |
| Control.SendToPlugin | plugin/index.js:182-200 | a null payload throws. `updateSettings` merges, always sends the merged settings, and refreshes iff the merged type is `device` with a read. After the settings come exactly the commands and requests of a refresh when the merged type is `device`, and nothing otherwise. `fetchData` runs the fetch, and any other type is ignored |
| Dispatch.LastSegment | plugin/utils/plugin.js:70 | the result is the dot-free suffix after the last dot, or the whole string when it has no dot |
| Dispatch.LastSegmentOfQualified | plugin/utils/plugin.js:70 | `prefix.name` with a dot-free `name` has action key `name` |
| Dispatch.ActionKey | plugin/utils/plugin.js:70 | no key for a missing action; a string gives its last segment; any other value throws |
| Dispatch.ControlFramesRouted | plugin/utils/plugin.js:73-75 | a frame for any `….control` action reaches the control handler of every event that handler defines |
| Dispatch.ControlFrameApplied | plugin/utils/plugin.js:60-76 | a frame for any `….control` button ends in the control handler's state and sends the pending request followed by the handler's commands; a throw keeps the state and sends only the pending request |
| Dispatch.KeyUpFrameRunsKeyUp | plugin/utils/plugin.js:60-76 | a key press on any `….control` button sends the pending request followed by exactly what `keyUp` sends, makes its requests, and changes no state |
| Dispatch.HandleControl | plugin/utils/plugin.js:73-75 | the control handler throws iff a payload-reading event has no payload. It never touches the global settings or the flag, and only a panel appearing changes the focus. Each event applies its own handler: `willAppear`, `didReceiveSettings`, `willDisappear`, `keyUp` and `sendToPlugin` give exactly the state and effects of the matching `Control` function, and a panel appearing sets the focus |
| Dispatch.Route | plugin/utils/plugin.js:72-85 | the action handler runs iff the key and the event name one. The overwrite runs iff the event is `didReceiveGlobalSettings`, and the plugin method runs iff the event names one. A routed frame ends in the control handler's state, commands and requests, or in the old state with nothing sent when the handler throws |
| Dispatch.OnMessage | plugin/utils/plugin.js:60-90 | the flag is always cleared, and a set flag makes the request the first output. A malformed message does nothing else. The action handler, the overwrite and a plugin method each run iff the message parses, its action key reads, and its event names that route. A message whose key reads ends in the routes' state, and sends the pending request followed by the routes' commands |
| Dispatch.MessageRequests | plugin/utils/plugin.js:61-85 | one message requests global settings once if the flag was set, plus once if it names `getGlobalSettings` and its action is absent or a string |
| Dispatch.RunRequests | plugin/utils/plugin.js:61-64 | over a session the flag requests global settings once, and every other request comes from a frame naming that method |
| Dispatch.GlobalsRequestedOnce | plugin/utils/plugin.js:61-64 | from a fresh flag, a non-empty session in which no frame's event is `getGlobalSettings` requests global settings exactly once, as its very first output |
| Dispatch.MalformedOnlyClearsFlag | plugin/utils/plugin.js:66-89 | an unparseable frame, or one whose action is not a string, only spends the flag |
| Dispatch.UnknownFrameChangesNothing | plugin/utils/plugin.js:73-85 | a frame no route accepts changes nothing but the flag |
| Dispatch.GlobalsOverwritten | plugin/utils/plugin.js:78-80 | `didReceiveGlobalSettings` stores exactly `payload.settings`, whatever the action, and nothing else changes |
| Dispatch.GlobalsKeptOnMissingPayload | plugin/utils/plugin.js:78-88 | without a payload the overwrite throws and the old settings stay |
| Dispatch.SetGlobals | plugin/utils/plugin.js:94-101 | the settings are stored and persisted under the plugin's uuid |
| Dispatch.PluginCall | plugin/utils/plugin.js:83-84 | `getGlobalSettings` requests the settings for the plugin's uuid, `setGlobalSettings` stores and persists the frame, and any other method changes no state (see "Left out") |
| Dispatch.SetGlobalsPersistsStored | plugin/utils/plugin.js:94-101 | what is persisted is what is stored, and nothing else in the plugin state changes |
| Dispatch.SetGlobalsEventStoresFrame | plugin/utils/plugin.js:83-101 | a frame whose event is `setGlobalSettings` hands the whole frame to the method, which stores and persists it |
| Dispatch.HandleControlKeepsTimers | plugin/index.js:106-122 | no control event breaks the timer registry |
| Dispatch.RunKeepsTimers | plugin/index.js:106-122 | every session keeps the timer registry consistent, so no context ever has more than one live timer |
| Dispatch.Run | plugin/utils/plugin.js:60 | a session keeps the uuid and, once it has seen a message, the flag is spent |

## Left out

- The WebSocket connection, its open, close and error handlers, and `process.exit` are transport and process supervision.
- The `https.request` plumbing, chunk streaming and the request URL, method and headers are not modelled. A reply arrives whole through the oracle.
- `setInterval` timing and the interleaving of asynchronous handlers are not modelled. Each handler runs to completion before the next message.
- JSON parsing and stringification are not modelled. Frames arrive parsed, and an unparseable message is `None`.
- The frame's `event` and `context` are modelled as strings. A non-string event is treated as absent, and a non-string context is not modelled.
- Logging (log4js), the argv and language parsing, and the process-level exception hooks are not modelled.
- The SVG markup and its base64 encoding are replaced by an injective token after the `data:image/svg+xml;base64,` prefix.
- `toLowerCase` is modelled on ASCII letters only.
- Numbers are integers, so fractions and NaN are not modelled. The model's spread copies the fields of an object only; JavaScript would also copy the indexed entries of a string or an array.
- The action key is compared with `control` only. Keys that name other plugin properties, and events that name helper methods or fields of the control action (`intervals`, `updateButtonState`, ...), are not routed.
- Dispatch.PluginCall: models only the two global-settings methods. A frame whose event names another plugin method calls that method with the whole message as its first argument. That argument is the context for `setTitle`, `showAlert` and the like, the payload for `sendToPropertyInspector`, and the url for `openUrl`. The resulting frame's content is not modelled, and the call is only recorded in the trace.
- Dispatch.SetGlobalsEventStoresFrame: `FrameValue` keeps only the four frame fields the model parses. A message's other fields are not stored.
- `Plugins.globalContext` and `Actions.actions` are written by `willAppear` but never read, so they are not modelled.
- `Plugins.language` is set from argv and never read by the core.
- Control.PlaceholderIconIsGetIcon: stated for a parameter equal to the constant type rather than for the literal itself, to keep the proof small.
- Dispatch.GlobalsRequestedOnce: stated for any state whose flag is set; `Start` is such a state.
- Api.Message: a `TypeError` is rendered as the fixed text `TypeError`. The engine's wording of the message (`Cannot read properties of null ...`) is not modelled.
- `EventEmitter` keys its lists by a plain object, so an event named after an `Object.prototype` member (`constructor`, `toString`, `__proto__`) finds an inherited value, and `subscribe`, `unsubscribe` and `emit` throw on it. The model treats every name as a fresh key.
- A listener that throws inside `emit` stops the `forEach`, so later listeners are not called. The model's `Emit` returns the listeners to call and does not model listener failure.

Behaviour of the code that may be unexpected, modelled as written:

- `updateButtonState` checks the button's settings only before its request. A reply that arrives after the button disappeared still writes its state (`Control.LateCompletionStillWrites`), and its icon when the type is a string.
- `handleFetchData` passes the requesting context to `sendToPropertyInspector`. The focused panel's context is used only when that context is empty; the action always comes from the focused panel.
- The toggle action's type is `devices.capabilities.on_off`, the same string the state read looks for.

=== FILE: actions.dfy ===
/** The `Actions` base class: the per-context settings every action keeps,
    written by the host's appear / settings / disappear events, and the
    focused configuration panel recorded when a panel appears. */
module Actions {
  import opened Js
  import opened Host

  /** `willAppear`: the context's settings become the action's default,
      overridden field by field by the settings the host pushed. */
  function Appear(data: map<string, Value>, ctx: string, default: map<string, Value>, settings: Value)
    : (r: map<string, Value>)
    ensures r.Keys == data.Keys + {ctx}
    ensures r[ctx].Obj? && r[ctx].fields.Keys == default.Keys + Fields(settings).Keys
    ensures forall k :: k in Fields(settings) ==> r[ctx].fields[k] == Fields(settings)[k]
    ensures forall k :: k in default && k !in Fields(settings) ==> r[ctx].fields[k] == default[k]
    ensures forall c :: c in data && c != ctx ==> r[c] == data[c]
  {
    data[ctx := Obj(default + Fields(settings))]
  }

  /** `didReceiveSettings`: the pushed settings replace the context's
      settings wholesale, with no default merged in. */
  function Replace(data: map<string, Value>, ctx: string, settings: Value): (r: map<string, Value>)
    ensures r.Keys == data.Keys + {ctx}
    ensures r[ctx] == settings
    ensures forall c :: c in data && c != ctx ==> r[c] == data[c]
  {
    data[ctx := settings]
  }

  /** `willDisappear`, after the action's own hook: the context is dropped. */
  function Forget(data: map<string, Value>, ctx: string): (r: map<string, Value>)
    ensures r.Keys == data.Keys - {ctx}
    ensures forall c :: c in r ==> r[c] == data[c]
  {
    data - {ctx}
  }

  /** `propertyInspectorDidAppear`: the panel's action and context become the focus. */
  function Inspect(action: Option<string>, ctx: string): Focus {
    Focus(action, Some(ctx))
  }

  /** Settings received after an appear do not keep anything the appear merged in. */
  lemma ReplaceForgetsDefault(data: map<string, Value>, ctx: string, default: map<string, Value>,
                              pushed: Value, settings: Value)
    ensures Replace(Appear(data, ctx, default, pushed), ctx, settings) == Replace(data, ctx, settings)
  {
  }

  /** Appearing and then disappearing leaves every other context as it was. */
  lemma AppearThenForget(data: map<string, Value>, ctx: string, default: map<string, Value>, settings: Value)
    ensures Forget(Appear(data, ctx, default, settings), ctx) == Forget(data, ctx)
    ensures ctx !in data ==> Forget(Appear(data, ctx, default, settings), ctx) == data
  {
    assert ctx !in data ==> data - {ctx} == data;
  }

  /** With no explicit target, a panel message goes to the panel that appeared last. */
  lemma InspectorFallsBackToFocus(action: Option<string>, ctx: string, payload: Inspector)
    ensures ToInspector(Inspect(action, ctx), payload, None, None) == SendToInspector(action, Some(ctx), payload)
  {
  }
}

=== FILE: api.dfy ===
/** The smart-home cloud client: how a finished HTTP exchange becomes a
    value or a failure, how a device's on/off state is read out of its
    description, the toggle request body, and the account lists the
    configuration panel asks for. The transport itself is not modelled: a
    `Reply` is what the request produced. */
module Api {
  import opened Js

  /** The outcome of one request: a transport failure, or a status code, the
      raw body text and what `JSON.parse` made of that text (None: it threw). */
  datatype Reply =
    | Transport(cause: string)
    | Response(status: int, body: string, json: Option<Value>)

  /** The requests the plugin issues, each authorised by a bearer token. */
  datatype Request =
    | UserInfo(token: Value)
    | RunScenario(token: Value, scenario: Value)
    | ReadDevice(token: Value, device: Value)
    | SetOnOff(token: Value, body: Value)

  /** The 2xx (Successful) status class of section 15.3 of RFC 9110. */
  predicate Successful(status: int) {
    status / 100 == 2
  }

  /** `yandexRequest`'s settlement: a 2xx status resolves with the parsed
      body, or null when the body is empty or not JSON; any other status, and
      a transport failure, reject. */
  function Classify(reply: Reply): (r: Result<Value>)
    ensures r.Ok? <==> reply.Response? && Successful(reply.status)
    ensures r.Ok? && (reply.body == "" || reply.json.None?) ==> r.value == Null
    ensures r.Ok? && reply.body != "" && reply.json.Some? ==> r.value == reply.json.value
    ensures reply.Response? && r.Err? ==> r.error == HttpStatus(reply.status, reply.body)
    ensures reply.Transport? ==> r.Err? && r.error == Network(reply.cause)
  {
    match reply
    case Transport(cause) => Err(Network(cause))
    case Response(status, body, json) =>
      if status >= 200 && status < 300 then
        if body == "" then Ok(Null)
        else if json.Some? then Ok(json.value)
        else Ok(Null)
      else Err(HttpStatus(status, body))
  }

  function DigitsOf(n: nat): string
    decreases n
  {
    var d := [('0' as int + n % 10) as char];
    if n < 10 then d else DigitsOf(n / 10) + d
  }

  /** Decimal rendering of an integer, as a template literal writes it. */
  function Decimal(n: int): string {
    if n < 0 then "-" + DigitsOf(-n) else DigitsOf(n)
  }

  /** The `message` of what a request rejects with. A thrown TypeError's
      wording belongs to the JavaScript engine and is rendered as a fixed text. */
  function Message(f: Failure): (r: string)
    ensures f.HttpStatus? ==> |r| >= 13 + |f.body| && r[..13] == "Status Code: " && r[|r| - |f.body|..] == f.body
    ensures f.Network? ==> r == f.cause
    ensures f.TypeError? ==> r == "TypeError"
  {
    match f
    case HttpStatus(status, body) => "Status Code: " + Decimal(status) + ", Body: " + body
    case Network(cause) => cause
    case TypeError => "TypeError"
  }

  /** The status boundaries: 299 succeeds, 199 and 300 fail. */
  lemma StatusBoundaries(body: string, json: Option<Value>)
    ensures Classify(Response(299, body, json)).Ok?
    ensures Classify(Response(199, body, json)).Err?
    ensures Classify(Response(300, body, json)).Err?
  {
  }

  // ---------------------------------------------------------------- device state

  const OnOff := "devices.capabilities.on_off"

  predicate IsOnOff(c: Value) {
    Get(c, "type") == Str(OnOff)
  }

  /** `caps.find(c => c.type === OnOff)`: reading `c.type` throws on a null
      or undefined entry, so the search fails on the first such entry that
      precedes every on/off capability. */
  function FindOnOff(caps: seq<Value>): (r: Result<Option<Value>>)
    ensures r.Ok? && r.value.Some? ==>
      exists i :: 0 <= i < |caps| && caps[i] == r.value.value && IsOnOff(caps[i])
        && forall j :: 0 <= j < i ==> !Nullish(caps[j]) && !IsOnOff(caps[j])
    ensures r == Ok(None) <==> forall i :: 0 <= i < |caps| ==> !Nullish(caps[i]) && !IsOnOff(caps[i])
    ensures r.Err? ==> r.error == TypeError
    ensures r.Err? ==>
      exists i :: 0 <= i < |caps| && Nullish(caps[i])
        && forall j :: 0 <= j < i ==> !Nullish(caps[j]) && !IsOnOff(caps[j])
  {
    if |caps| == 0 then Ok(None)
    else if Nullish(caps[0]) then Err(TypeError)
    else if IsOnOff(caps[0]) then Ok(Some(caps[0]))
    else
      var r := FindOnOff(caps[1..]);
      assert forall i :: 1 <= i < |caps| ==> caps[1..][i - 1] == caps[i];
      if r.Ok? && r.value.Some? then
        var i :| 0 <= i < |caps[1..]| && caps[1..][i] == r.value.value && IsOnOff(caps[1..][i])
                 && forall j :: 0 <= j < i ==> !Nullish(caps[1..][j]) && !IsOnOff(caps[1..][j]);
        assert caps[i + 1] == r.value.value;
        r
      else if r.Err? then
        var i :| 0 <= i < |caps[1..]| && Nullish(caps[1..][i])
                 && forall j :: 0 <= j < i ==> !Nullish(caps[1..][j]) && !IsOnOff(caps[1..][j]);
        assert Nullish(caps[i + 1]);
        r
      else r
  }

  /** What `getDeviceState` returns: the on/off capability's current value
      and the device type, both as the cloud sent them. */
  datatype DeviceState = DeviceState(isOn: Value, kind: Value)

  /** `getDeviceState` after the request resolved with `data`. */
  function DeviceStateOf(data: Value): (r: Result<Option<DeviceState>>)
    ensures !Truthy(data) || !Truthy(Get(data, "capabilities")) ==> r == Ok(None)
    ensures r.Ok? && r.value.Some? ==>
      Get(data, "capabilities").Arr?
      && var caps := Get(data, "capabilities").items;
         exists i :: 0 <= i < |caps| && IsOnOff(caps[i])
           && (forall j :: 0 <= j < i ==> !IsOnOff(caps[j]))
           && r.value.value == DeviceState(Get(Get(caps[i], "state"), "value"), Get(data, "type"))
    ensures Truthy(data) && Get(data, "capabilities").Arr? ==>
      (r == Ok(None) <==> forall i :: 0 <= i < |Get(data, "capabilities").items| ==>
                              !Nullish(Get(data, "capabilities").items[i])
                              && !IsOnOff(Get(data, "capabilities").items[i]))
    ensures var found := if Get(data, "capabilities").Arr? then FindOnOff(Get(data, "capabilities").items) else Ok(None);
            Truthy(data) && found.Ok? && found.value.Some? && !Nullish(Get(found.value.value, "state")) ==>
              r == Ok(Some(DeviceState(Get(Get(found.value.value, "state"), "value"), Get(data, "type"))))
    ensures Truthy(data) && Truthy(Get(data, "capabilities")) && !Get(data, "capabilities").Arr? ==> r == Err(TypeError)
    ensures Truthy(data) && Get(data, "capabilities").Arr? && FindOnOff(Get(data, "capabilities").items).Err? ==>
              r == Err(TypeError)
    ensures var found := if Get(data, "capabilities").Arr? then FindOnOff(Get(data, "capabilities").items) else Ok(None);
            Truthy(data) && found.Ok? && found.value.Some? && Nullish(Get(found.value.value, "state")) ==>
              r == Err(TypeError)
  {
    var caps := Get(data, "capabilities");
    if !Truthy(data) || !Truthy(caps) then Ok(None)
    else match caps
      case Arr(items) =>
        (match FindOnOff(items)
         case Err(e) => Err(e)
         case Ok(None) => Ok(None)
         case Ok(Some(c)) =>
           (match Prop(Get(c, "state"), "value")
            case Err(e) => Err(e)
            case Ok(v) => Ok(Some(DeviceState(v, Get(data, "type"))))))
      case _ => Err(TypeError)   // `caps.find` is not a function
  }

  /** `getDeviceState(token, id)` given the reply to its read request. */
  function ReadState(reply: Reply): (r: Result<Option<DeviceState>>)
    ensures reply.Transport? ==> r == Err(Network(reply.cause))
    ensures reply.Response? && !Successful(reply.status) ==> r == Err(HttpStatus(reply.status, reply.body))
    ensures reply.Response? && Successful(reply.status) && (reply.body == "" || reply.json.None?) ==> r == Ok(None)
    ensures reply.Response? && Successful(reply.status) && reply.body != "" && reply.json.Some? ==>
              r == DeviceStateOf(reply.json.value)
  {
    match Classify(reply)
    case Err(e) => Err(e)
    case Ok(data) => DeviceStateOf(data)
  }

  /** An empty or unparseable successful reply reads as "no state", not as a failure. */
  lemma EmptyReplyHasNoState(status: int, body: string, json: Option<Value>)
    requires Successful(status) && (body == "" || json.None?)
    ensures ReadState(Response(status, body, json)) == Ok(None)
  {
  }

  // ---------------------------------------------------------------- toggle body

  function Single(fields: map<string, Value>): Value {
    Arr([Obj(fields)])
  }

  /** The `toggleDevice` body: one device carrying one on/off action. */
  function ToggleBody(device: Value, on: bool): Value {
    Obj(map["devices" := Single(map[
      "id" := device,
      "actions" := Single(map[
        "type" := Str(OnOff),
        "state" := Obj(map["instance" := Str("on"), "value" := Bool(on)])])])])
  }

  /** Reads a toggle body back: present only when it lists exactly one device
      with exactly one on/off action on instance "on" with a boolean value. */
  function ReadToggle(body: Value): Option<(Value, bool)> {
    var devices := Get(body, "devices");
    if !devices.Arr? || |devices.items| != 1 then None
    else
      var d := devices.items[0];
      var actions := Get(d, "actions");
      if !actions.Arr? || |actions.items| != 1 then None
      else
        var a := actions.items[0];
        var state := Get(a, "state");
        if IsOnOff(a) && Get(state, "instance") == Str("on") && Get(state, "value").Bool? && d.Obj? && "id" in d.fields
        then Some((Get(d, "id"), Get(state, "value").b))
        else None
  }

  /** The body names exactly the device and the state asked for. */
  lemma ToggleRoundTrip(device: Value, on: bool)
    ensures ReadToggle(ToggleBody(device, on)) == Some((device, on))
  {
  }

  // ---------------------------------------------------------------- account lists

  /** The `{id, name}` projection sent to the configuration panel. */
  datatype Entry = Entry(id: Value, name: Value)

  function Project(v: Value): Entry {
    Entry(Get(v, "id"), Get(v, "name"))
  }

  function ProjectAll(vs: seq<Value>): (r: seq<Entry>)
    ensures |r| == |vs| && forall i :: 0 <= i < |vs| ==> r[i] == Project(vs[i])
  {
    if vs == [] then [] else [Project(vs[0])] + ProjectAll(vs[1..])
  }

  /** `items.map(s => ({ id: s.id, name: s.name }))`: throws on a null or undefined item. */
  function MapEntries(items: seq<Value>): (r: Result<seq<Entry>>)
    ensures r.Ok? <==> forall i :: 0 <= i < |items| ==> !Nullish(items[i])
    ensures r.Ok? ==> r.value == ProjectAll(items)
  {
    if items == [] then Ok([])
    else if Nullish(items[0]) then Err(TypeError)
    else match MapEntries(items[1..])
      case Err(e) => Err(e)
      case Ok(rest) =>
        assert forall i :: 1 <= i < |items| ==> items[1..][i - 1] == items[i];
        Ok([Project(items[0])] + rest)
  }

  /** `caps.some(c => c.type === OnOff)`: stops at the first on/off entry, so
      only the entries before it must be readable. */
  function AnyOnOff(caps: seq<Value>): (r: Result<bool>)
    ensures (forall i :: 0 <= i < |caps| ==> !Nullish(caps[i])) ==> r.Ok?
    ensures r == Ok(true) ==> exists i :: 0 <= i < |caps| && IsOnOff(caps[i])
    ensures r == Ok(false) ==> forall i :: 0 <= i < |caps| ==> !IsOnOff(caps[i])
    ensures r.Err? ==> exists i :: 0 <= i < |caps| && Nullish(caps[i])
  {
    if caps == [] then Ok(false)
    else if Nullish(caps[0]) then Err(TypeError)
    else if IsOnOff(caps[0]) then Ok(true)
    else AnyOnOff(caps[1..])
  }

  lemma {:induction false} AnyOnOffIsFind(caps: seq<Value>)
    ensures AnyOnOff(caps).Ok? <==> FindOnOff(caps).Ok?
    ensures AnyOnOff(caps).Ok? ==> (AnyOnOff(caps).value <==> FindOnOff(caps).value.Some?)
  {
    if caps != [] && !Nullish(caps[0]) && !IsOnOff(caps[0]) {
      AnyOnOffIsFind(caps[1..]);
    }
  }

  /** A device the panel may offer: it lists an on/off capability. */
  ghost predicate Controllable(d: Value) {
    var caps := Get(d, "capabilities");
    caps.Arr? && exists i :: 0 <= i < |caps.items| && IsOnOff(caps.items[i])
  }

  /** The reference filter: the controllable devices, in their original order. */
  ghost function Kept(devices: seq<Value>): seq<Value> {
    if devices == [] then []
    else (if Controllable(devices[0]) then [devices[0]] else []) + Kept(devices[1..])
  }

  /** A device the filter can examine without throwing. */
  predicate Readable(d: Value) {
    !Nullish(d) && Get(d, "capabilities").Arr?
    && forall i :: 0 <= i < |Get(d, "capabilities").items| ==> !Nullish(Get(d, "capabilities").items[i])
  }

  /** A device the filter gets through without throwing: not null, with an
      array of capabilities that has no null entry before its first on/off one. */
  predicate Filterable(d: Value) {
    !Nullish(d) && Get(d, "capabilities").Arr? && FindOnOff(Get(d, "capabilities").items).Ok?
  }

  /** `devices.filter(d => d.capabilities.some(...))` followed by the projection. */
  function KeepControllable(devices: seq<Value>): (r: Result<seq<Entry>>)
    ensures r.Ok? ==> r.value == ProjectAll(Kept(devices))
    ensures (forall i :: 0 <= i < |devices| ==> Readable(devices[i])) ==> r.Ok?
    ensures r.Ok? <==> forall i :: 0 <= i < |devices| ==> Filterable(devices[i])
  {
    if devices == [] then Ok([])
    else
      var d := devices[0];
      if Nullish(d) then Err(TypeError)
      else
        var caps := Get(d, "capabilities");
        if !caps.Arr? then Err(TypeError)   // `.some` of undefined, or not a function
        else
          assert forall i :: 1 <= i < |devices| ==> devices[1..][i - 1] == devices[i];
          AnyOnOffIsFind(caps.items);
          match AnyOnOff(caps.items)
          case Err(e) => Err(e)
          case Ok(keep) =>
            match KeepControllable(devices[1..])
            case Err(e) => Err(e)
            case Ok(rest) =>
              AnyOnOffIsFind(caps.items);
              assert keep <==> Controllable(d);
              Ok((if keep then [Project(d)] else []) + rest)
  }

  /** What `handleFetchData` pushes on success: the scenarios and the
      controllable devices of the account, projected to `{id, name}`. */
  datatype Lists = Lists(scenarios: seq<Entry>, devices: seq<Entry>)

  /** `handleFetchData` after `fetchUserInfo` resolved with `data`. */
  function AccountLists(data: Value): (r: Result<Lists>)
    ensures r.Ok? ==> Get(data, "scenarios").Arr? && Get(data, "devices").Arr?
    ensures r.Ok? ==> r.value.scenarios == ProjectAll(Get(data, "scenarios").items)
    ensures r.Ok? ==> r.value.devices == ProjectAll(Kept(Get(data, "devices").items))
    ensures Nullish(data) ==> r == Err(TypeError)
    ensures !Nullish(data) && Get(data, "scenarios").Arr? && Get(data, "devices").Arr?
            && (forall i :: 0 <= i < |Get(data, "scenarios").items| ==> !Nullish(Get(data, "scenarios").items[i]))
            && (forall i :: 0 <= i < |Get(data, "devices").items| ==> Readable(Get(data, "devices").items[i]))
            ==> r.Ok?
    ensures r.Ok? <==>
              && !Nullish(data) && Get(data, "scenarios").Arr? && Get(data, "devices").Arr?
              && (forall i :: 0 <= i < |Get(data, "scenarios").items| ==> !Nullish(Get(data, "scenarios").items[i]))
              && (forall i :: 0 <= i < |Get(data, "devices").items| ==> Filterable(Get(data, "devices").items[i]))
  {
    if Nullish(data) then Err(TypeError)
    else
      var scenarios := Get(data, "scenarios");
      if !scenarios.Arr? then Err(TypeError)
      else match MapEntries(scenarios.items)
        case Err(e) => Err(e)
        case Ok(s) =>
          var devices := Get(data, "devices");
          if !devices.Arr? then Err(TypeError)
          else match KeepControllable(devices.items)
            case Err(e) => Err(e)
            case Ok(d) => Ok(Lists(s, d))
  }

  // ---------------------------------------------------------------- properties

  /** A device is kept exactly when it is in the input and controllable. */
  lemma {:induction false} KeptMembership(devices: seq<Value>, d: Value)
    ensures d in Kept(devices) <==> d in devices && Controllable(d)
  {
    if devices != [] {
      KeptMembership(devices[1..], d);
      assert devices == [devices[0]] + devices[1..];
    }
  }

  /** The filter distributes over concatenation, so it keeps the original order. */
  lemma {:induction false} KeptAppend(a: seq<Value>, b: seq<Value>)
    ensures Kept(a + b) == Kept(a) + Kept(b)
  {
    if a == [] {
      assert a + b == b;
    } else {
      assert (a + b)[0] == a[0];
      assert (a + b)[1..] == a[1..] + b;
      var head := if Controllable(a[0]) then [a[0]] else [];
      assert Kept(a + b) == head + Kept(a[1..] + b);
      KeptAppend(a[1..], b);
      assert Kept(a) == head + Kept(a[1..]);
      assert head + (Kept(a[1..]) + Kept(b)) == (head + Kept(a[1..])) + Kept(b);
    }
  }

  function Capability(kind: string): Value {
    Obj(map["type" := Str(kind)])
  }

  function Device(id: int, kind: string): Value {
    Obj(map["id" := Num(id), "capabilities" := Arr([Capability(kind)])])
  }

  /** Device 1 has an on/off capability, device 2 only a brightness one:
      only device 1 reaches the panel. */
  lemma FilterExample()
    ensures KeepControllable([Device(1, OnOff), Device(2, "devices.capabilities.range")])
         == Ok([Entry(Num(1), Undefined)])
  {
    var d1 := Device(1, OnOff);
    var d2 := Device(2, "devices.capabilities.range");
    assert Get(d1, "capabilities").items[0] == Capability(OnOff);
    assert Controllable(d1);
    assert !IsOnOff(Capability("devices.capabilities.range"));
    assert !Controllable(d2);
    assert [d1, d2][1..] == [d2];
    assert Kept([d2]) == [];
    assert Kept([d1, d2]) == [d1];
    assert ProjectAll([d1]) == [Entry(Num(1), Undefined)];
  }
}

=== FILE: control.dfy ===
/** The `control` action: one physical button bound either to a scenario
    or to a device. Each handler is a pure step from the action's state, the
    process-wide settings and a network oracle to a new state plus the
    commands and requests it produced. Polling timers are a registry of live
    timers and the context each one refreshes. */
module Control {
  import opened Js
  import opened Host
  import Icons
  import Api
  import Actions

  /** The action's default settings. */
  const Default: map<string, Value> := map["type" := Str("scenario"), "objectId" := Str("")]

  /** The type whose icon is shown on a device button before its first refresh. */
  const PlaceholderKind := "devices.types.other"

  /** The icon `getIcon(PlaceholderKind, false)` yields (PlaceholderIconIsGetIcon). */
  const PlaceholderIcon := Icons.Icon(Icons.Bolt, Icons.Off)

  // ---------------------------------------------------------------- timers

  /** `intervals` (context to timer) and the runtime's live interval timers,
      each with the context its callback refreshes. */
  datatype Timers = Timers(owner: map<string, nat>, polls: map<nat, string>, next: nat)

  /** Every live timer is the one `intervals` holds for the context it
      refreshes, and vice versa; fresh ids are above every live one. */
  ghost predicate TimersOk(t: Timers) {
    && (forall c :: c in t.owner ==> t.owner[c] in t.polls && t.polls[t.owner[c]] == c)
    && (forall id :: id in t.polls ==> t.polls[id] in t.owner && t.owner[t.polls[id]] == id)
    && (forall id :: id in t.polls ==> id < t.next)
  }

  /** The live timers that refresh `ctx`. */
  ghost function Pollers(t: Timers, ctx: string): set<nat> {
    set id | id in t.polls && t.polls[id] == ctx
  }

  const NoTimers := Timers(map[], map[], 0)

  lemma NoTimersOk()
    ensures TimersOk(NoTimers)
  {
  }

  /** Under the invariant a context has exactly the timer `intervals` holds for it. */
  lemma PollersOfOwner(t: Timers, ctx: string)
    requires TimersOk(t)
    ensures Pollers(t, ctx) == if ctx in t.owner then {t.owner[ctx]} else {}
  {
  }

  /** `_willAppear`'s timer part: clear the context's old interval, if any,
      and register a new one. */
  function StartPolling(t: Timers, ctx: string): (r: Timers)
    ensures ctx in r.owner && r.owner[ctx] in r.polls
    ensures ctx in t.owner ==> t.owner[ctx] !in r.polls || t.owner[ctx] == t.next
    ensures forall c :: c != ctx ==> (c in r.owner <==> c in t.owner)
    ensures forall c :: c != ctx && c in t.owner ==> r.owner[c] == t.owner[c]
  {
    var polls := if ctx in t.owner then t.polls - {t.owner[ctx]} else t.polls;
    Timers(t.owner[ctx := t.next], polls[t.next := ctx], t.next + 1)
  }

  /** `_willDisappear`: clear and forget the context's interval, if any. */
  function StopPolling(t: Timers, ctx: string): (r: Timers)
    ensures ctx !in r.owner
    ensures ctx in t.owner ==> t.owner[ctx] !in r.polls
    ensures forall c :: c != ctx ==> (c in r.owner <==> c in t.owner)
    ensures forall c :: c != ctx && c in t.owner ==> r.owner[c] == t.owner[c]
  {
    if ctx !in t.owner then t
    else Timers(t.owner - {ctx}, t.polls - {t.owner[ctx]}, t.next)
  }

  /** After an appear the context has exactly one live timer, no timer is
      leaked, and every other context keeps its timers. */
  lemma StartPollingKeepsTimersOk(t: Timers, ctx: string)
    requires TimersOk(t)
    ensures TimersOk(StartPolling(t, ctx))
    ensures Pollers(StartPolling(t, ctx), ctx) == {StartPolling(t, ctx).owner[ctx]}
    ensures forall c :: c != ctx ==> Pollers(StartPolling(t, ctx), c) == Pollers(t, c)
  {
    var r := StartPolling(t, ctx);
    PollersOfOwner(r, ctx);
    forall c | c != ctx ensures Pollers(r, c) == Pollers(t, c) {
      PollersOfOwner(r, c);
      PollersOfOwner(t, c);
    }
  }

  /** After a disappear the context has no live timer, and every other
      context keeps its timers. */
  lemma StopPollingKeepsTimersOk(t: Timers, ctx: string)
    requires TimersOk(t)
    ensures TimersOk(StopPolling(t, ctx))
    ensures Pollers(StopPolling(t, ctx), ctx) == {}
    ensures forall c :: c != ctx ==> Pollers(StopPolling(t, ctx), c) == Pollers(t, c)
  {
    var r := StopPolling(t, ctx);
    PollersOfOwner(r, ctx);
    forall c | c != ctx ensures Pollers(r, c) == Pollers(t, c) {
      PollersOfOwner(r, c);
      PollersOfOwner(t, c);
    }
  }

  // ---------------------------------------------------------------- state

  /** `this.data` (context to settings) and the polling timers. */
  datatype ControlState = ControlState(data: map<string, Value>, timers: Timers)

  const Empty := ControlState(map[], NoTimers)

  function Bit(b: bool): int {
    if b then 1 else 0
  }

  /** A button command for `ctx` (not a panel message, not a settings write). */
  predicate ButtonCommand(c: Command, ctx: string) {
    (c.SetImage? || c.SetState? || c.ShowAlert? || c.ShowOk?) && c.context == ctx
  }

  // ---------------------------------------------------------------- refresh

  /** What `updateButtonState` has captured when its read request goes out. */
  datatype Poll = Poll(context: string, token: Value, device: Value)

  /** The guards of `updateButtonState`, up to its network call: settings
      present, a device id, bound to a device, and a token. A missing global
      settings object makes the token read throw, which is only logged. */
  function PollStart(data: map<string, Value>, globals: Value, ctx: string): (r: Option<Poll>)
    ensures r.Some? <==>
      && Truthy(Lookup(data, ctx))
      && Truthy(Get(Lookup(data, ctx), "objectId"))
      && Get(Lookup(data, ctx), "type") == Str("device")
      && !Nullish(globals)
      && Truthy(Get(globals, "token"))
    ensures r.Some? ==> r.value == Poll(ctx, Get(globals, "token"), Get(Lookup(data, ctx), "objectId"))
  {
    var settings := Lookup(data, ctx);
    if !Truthy(settings) || !Truthy(Get(settings, "objectId")) || Get(settings, "type") != Str("device") then None
    else if Nullish(globals) then None
    else
      var token := Get(globals, "token");
      if !Truthy(token) then None else Some(Poll(ctx, token, Get(settings, "objectId")))
  }

  /** The rest of `updateButtonState` once the read settled: show the state
      and the type's icon; a failure is only logged. Nothing here looks at
      whether the button still exists. */
  function PollFinish(p: Poll, reply: Api.Reply): (out: seq<Command>)
    ensures forall c :: c in out ==> (c.SetState? || c.SetImage?) && c.context == p.context
    ensures out != [] <==> Api.ReadState(reply).Ok? && Api.ReadState(reply).value.Some?
    ensures out != [] ==> out[0] == SetState(p.context, Bit(Truthy(Api.ReadState(reply).value.value.isOn)))
    ensures |out| <= 2
    ensures var read := Api.ReadState(reply);
            read.Ok? && read.value.Some? ==>
              && (|out| == 2 <==> read.value.value.kind.Str?)
              && (|out| == 2 ==>
                    out[1] == SetImage(p.context, Icons.GetIcon(read.value.value.kind.s, Truthy(read.value.value.isOn))))
  {
    match Api.ReadState(reply)
    case Err(_) => []
    case Ok(None) => []
    case Ok(Some(ds)) =>
      var on := Truthy(ds.isOn);
      [SetState(p.context, Bit(on))]
      + (if ds.kind.Str? then [SetImage(p.context, Icons.GetIcon(ds.kind.s, on))] else [])
  }

  /** `updateButtonState(ctx)` run to completion. */
  function Refresh(data: map<string, Value>, globals: Value, ctx: string, net: Api.Request -> Api.Reply)
    : (e: Effects)
    ensures forall c :: c in e.out ==> (c.SetState? || c.SetImage?) && c.context == ctx
    ensures PollStart(data, globals, ctx).None? ==> e == NoEffects
    ensures PollStart(data, globals, ctx).Some? ==>
      e.calls == [Api.ReadDevice(Get(globals, "token"), Get(Lookup(data, ctx), "objectId"))]
    ensures e.out != [] ==> |e.calls| == 1 && Api.ReadState(net(e.calls[0])).Ok?
    ensures PollStart(data, globals, ctx).Some? ==>
              e.out == PollFinish(PollStart(data, globals, ctx).value, net(e.calls[0]))
  {
    match PollStart(data, globals, ctx)
    case None => NoEffects
    case Some(p) =>
      var read := Api.ReadDevice(p.token, p.device);
      Effects(PollFinish(p, net(read)), [read])
  }

  // ---------------------------------------------------------------- lifecycle

  /** What `_willAppear` sends for a freshly merged context: the placeholder
      icon on a device button, then one refresh. */
  function AppearEffects(data: map<string, Value>, ctx: string, globals: Value,
                         net: Api.Request -> Api.Reply): (e: Effects)
    requires ctx in data
    ensures forall c :: c in e.out ==> ButtonCommand(c, ctx)
    ensures Get(data[ctx], "type") == Str("device") ==>
              && |e.out| > 0 && e.out[0] == SetImage(ctx, PlaceholderIcon)
              && e.out[1..] == Refresh(data, globals, ctx, net).out
              && e.calls == Refresh(data, globals, ctx, net).calls
    ensures Get(data[ctx], "type") != Str("device") ==> e == NoEffects
  {
    // `if (!this.data[context])` cannot fire: the merge before it stored an object.
    if Get(data[ctx], "type") == Str("device") then
      Then(Effects([SetImage(ctx, PlaceholderIcon)], []), Refresh(data, globals, ctx, net))
    else
      assert Refresh(data, globals, ctx, net) == NoEffects;
      NoEffects
  }

  /** `willAppear` followed by `_willAppear`: merge the pushed settings over
      the default, show the placeholder icon on a device button, refresh once,
      and (re)start the context's polling timer. */
  function WillAppear(st: ControlState, ctx: string, settings: Value, globals: Value,
                      net: Api.Request -> Api.Reply): (r: (ControlState, Effects))
    ensures r.0.data.Keys == st.data.Keys + {ctx}
    ensures r.0.data[ctx].Obj? && r.0.data[ctx].fields.Keys == Default.Keys + Fields(settings).Keys
    ensures forall k :: k in Fields(settings) ==> r.0.data[ctx].fields[k] == Fields(settings)[k]
    ensures forall k :: k in Default && k !in Fields(settings) ==> r.0.data[ctx].fields[k] == Default[k]
    ensures forall c :: c in st.data && c != ctx ==> r.0.data[c] == st.data[c]
    ensures ctx in r.0.timers.owner
    ensures forall c :: c != ctx ==> (c in r.0.timers.owner <==> c in st.timers.owner)
    ensures forall c :: c != ctx && c in st.timers.owner ==> r.0.timers.owner[c] == st.timers.owner[c]
    ensures TimersOk(st.timers) ==>
              && TimersOk(r.0.timers)
              && Pollers(r.0.timers, ctx) == {r.0.timers.owner[ctx]}
              && forall c :: c != ctx ==> Pollers(r.0.timers, c) == Pollers(st.timers, c)
    ensures r.1 == AppearEffects(r.0.data, ctx, globals, net)
  {
    var data := Actions.Appear(st.data, ctx, Default, settings);
    var timers := StartPolling(st.timers, ctx);
    assert TimersOk(st.timers) ==>
             && TimersOk(timers)
             && Pollers(timers, ctx) == {timers.owner[ctx]}
             && forall c :: c != ctx ==> Pollers(timers, c) == Pollers(st.timers, c) by {
      if TimersOk(st.timers) {
        StartPollingKeepsTimersOk(st.timers, ctx);
      }
    }
    (ControlState(data, timers), AppearEffects(data, ctx, globals, net))
  }

  /** `_willDisappear` followed by the base `willDisappear`: stop polling and
      drop the settings. */
  function WillDisappear(st: ControlState, ctx: string): (r: ControlState)
    ensures r.data.Keys == st.data.Keys - {ctx}
    ensures forall c :: c in r.data ==> r.data[c] == st.data[c]
    ensures ctx !in r.timers.owner
    ensures forall c :: c != ctx ==> (c in r.timers.owner <==> c in st.timers.owner)
    ensures forall c :: c != ctx && c in st.timers.owner ==> r.timers.owner[c] == st.timers.owner[c]
    ensures TimersOk(st.timers) ==>
              && TimersOk(r.timers)
              && Pollers(r.timers, ctx) == {}
              && forall c :: c != ctx ==> Pollers(r.timers, c) == Pollers(st.timers, c)
  {
    var timers := StopPolling(st.timers, ctx);
    assert TimersOk(st.timers) ==>
             && TimersOk(timers)
             && Pollers(timers, ctx) == {}
             && forall c :: c != ctx ==> Pollers(timers, c) == Pollers(st.timers, c) by {
      if TimersOk(st.timers) {
        StopPollingKeepsTimersOk(st.timers, ctx);
      }
    }
    ControlState(Actions.Forget(st.data, ctx), timers)
  }

  /** `didReceiveSettings` (the action adds no hook). */
  function DidReceiveSettings(st: ControlState, ctx: string, settings: Value): (r: ControlState)
    ensures r.data.Keys == st.data.Keys + {ctx} && r.data[ctx] == settings
    ensures forall c :: c in st.data && c != ctx ==> r.data[c] == st.data[c]
    ensures r.timers == st.timers
  {
    st.(data := Actions.Replace(st.data, ctx, settings))
  }

  // ---------------------------------------------------------------- key press

  /** `keyUp`: check token and target, then run the scenario or toggle the
      device. A missing settings object or global settings object makes the
      handler throw before anything is sent; that rejection is only logged. */
  function KeyUp(data: map<string, Value>, globals: Value, ctx: string, net: Api.Request -> Api.Reply)
    : (e: Effects)
    ensures forall c :: c in e.out ==> ButtonCommand(c, ctx)
    ensures |e.calls| <= 2
    ensures var settings := Lookup(data, ctx);
            !Nullish(settings) && !Nullish(globals)
            && (!Truthy(Get(globals, "token")) || !Truthy(Get(settings, "objectId")))
            ==> e == Effects([ShowAlert(ctx)], [])
    ensures ShowOk(ctx) in e.out ==>
              Get(Lookup(data, ctx), "type") == Str("scenario")
              && e.calls == [Api.RunScenario(Get(globals, "token"), Get(Lookup(data, ctx), "objectId"))]
              && Api.Classify(net(e.calls[0])).Ok?
    ensures forall i :: 0 <= i < |e.out| && e.out[i].SetState? ==>
              && Get(Lookup(data, ctx), "type") == Str("device")
              && |e.calls| == 2
              && e.calls[0] == Api.ReadDevice(Get(globals, "token"), Get(Lookup(data, ctx), "objectId"))
              && e.calls[1] == Api.SetOnOff(Get(globals, "token"),
                                            Api.ToggleBody(Get(Lookup(data, ctx), "objectId"), e.out[i].state == 1))
              && Api.Classify(net(e.calls[1])).Ok?
              && Api.ReadState(net(e.calls[0])).Ok? && Api.ReadState(net(e.calls[0])).value.Some?
              && (Truthy(Api.ReadState(net(e.calls[0])).value.value.isOn) <==> e.out[i].state == 0)
    ensures Nullish(Lookup(data, ctx)) || Nullish(globals) ==> e == NoEffects
    ensures var settings := Lookup(data, ctx);
            var token := Get(globals, "token");
            var id := Get(settings, "objectId");
            !Nullish(settings) && !Nullish(globals) && Truthy(token) && Truthy(id) ==>
              && (Get(settings, "type") == Str("scenario") ==>
                    e == Effects(if Api.Classify(net(Api.RunScenario(token, id))).Ok? then [ShowOk(ctx)] else [ShowAlert(ctx)],
                                 [Api.RunScenario(token, id)]))
              && (Get(settings, "type") == Str("device") ==> e == PressDevice(ctx, token, id, net))
              && (Get(settings, "type") != Str("scenario") && Get(settings, "type") != Str("device") ==> e == NoEffects)
  {
    var settings := Lookup(data, ctx);
    if Nullish(settings) || Nullish(globals) then NoEffects
    else
      var kind := Get(settings, "type");
      var id := Get(settings, "objectId");
      var token := Get(globals, "token");
      if !Truthy(token) || !Truthy(id) then Effects([ShowAlert(ctx)], [])
      else if kind == Str("scenario") then
        var run := Api.RunScenario(token, id);
        Effects(if Api.Classify(net(run)).Ok? then [ShowOk(ctx)] else [ShowAlert(ctx)], [run])
      else if kind == Str("device") then PressDevice(ctx, token, id, net)
      else NoEffects
  }

  /** The device branch of `keyUp`: read the state, send its negation, and
      show the new state and icon; a failed read or write alerts. */
  function PressDevice(ctx: string, token: Value, id: Value, net: Api.Request -> Api.Reply): (e: Effects)
    ensures forall c :: c in e.out ==> ButtonCommand(c, ctx)
    ensures 1 <= |e.calls| <= 2 && e.calls[0] == Api.ReadDevice(token, id)
    ensures Api.ReadState(net(Api.ReadDevice(token, id))).Err? ==> e.out == [ShowAlert(ctx)]
    ensures forall i :: 0 <= i < |e.out| && e.out[i].SetState? ==>
              && |e.calls| == 2
              && e.calls[1] == Api.SetOnOff(token, Api.ToggleBody(id, e.out[i].state == 1))
              && Api.Classify(net(e.calls[1])).Ok?
              && Api.ReadState(net(e.calls[0])).Ok? && Api.ReadState(net(e.calls[0])).value.Some?
              && (Truthy(Api.ReadState(net(e.calls[0])).value.value.isOn) <==> e.out[i].state == 0)
    ensures ShowOk(ctx) !in e.out
    ensures Api.ReadState(net(Api.ReadDevice(token, id))) == Ok(None) ==> e.out == []
    ensures var read := Api.ReadState(net(Api.ReadDevice(token, id)));
            !(read.Ok? && read.value.Some?) ==> e.calls == [Api.ReadDevice(token, id)]
    ensures var read := Api.ReadState(net(Api.ReadDevice(token, id)));
            read.Ok? && read.value.Some? ==>
              var on := !Truthy(read.value.value.isOn);
              var toggle := Api.SetOnOff(token, Api.ToggleBody(id, on));
              && e.calls == [Api.ReadDevice(token, id), toggle]
              && (Api.Classify(net(toggle)).Err? ==> e.out == [ShowAlert(ctx)])
              && (Api.Classify(net(toggle)).Ok? ==> |e.out| == 2 && e.out[0] == SetState(ctx, Bit(on)))
              && (Api.Classify(net(toggle)).Ok? ==>
                    var kind := read.value.value.kind;
                    e.out[1] == if kind.Str? then SetImage(ctx, Icons.GetIcon(kind.s, on)) else ShowAlert(ctx))
    ensures forall i :: 0 <= i < |e.out| && e.out[i].SetImage? ==>
              && i == 1 && e.out[0].SetState?
              && var ds := Api.ReadState(net(Api.ReadDevice(token, id))).value.value;
                 ds.kind.Str? && e.out[i].icon == Icons.GetIcon(ds.kind.s, e.out[0].state == 1)
  {
    var read := Api.ReadDevice(token, id);
    match Api.ReadState(net(read))
    case Err(_) => Effects([ShowAlert(ctx)], [read])
    case Ok(None) => Effects([], [read])
    case Ok(Some(ds)) =>
      var on := !Truthy(ds.isOn);
      var toggle := Api.SetOnOff(token, Api.ToggleBody(id, on));
      if Api.Classify(net(toggle)).Err? then Effects([ShowAlert(ctx)], [read, toggle])
      else
        // `getIcon` throws on a type that is not a string; the catch shows the alert.
        var shown := if ds.kind.Str? then SetImage(ctx, Icons.GetIcon(ds.kind.s, on)) else ShowAlert(ctx);
        Effects([SetState(ctx, Bit(on)), shown], [read, toggle])
  }

  // ---------------------------------------------------------------- panel messages

  /** The `updateSettings` merge: the panel's fields over the current ones. */
  function Merge(data: map<string, Value>, ctx: string, update: Value): (r: map<string, Value>)
    ensures r.Keys == data.Keys + {ctx} && r[ctx].Obj?
    ensures r[ctx].fields.Keys == Fields(Lookup(data, ctx)).Keys + Fields(update).Keys
    ensures forall k :: k in Fields(update) ==> r[ctx].fields[k] == Fields(update)[k]
    ensures forall k :: k in Fields(Lookup(data, ctx)) && k !in Fields(update) ==>
              r[ctx].fields[k] == Fields(Lookup(data, ctx))[k]
    ensures forall c :: c in data && c != ctx ==> r[c] == data[c]
  {
    data[ctx := Obj(Fields(Lookup(data, ctx)) + Fields(update))]
  }

  /** `handleFetchData`: fetch the account, keep the controllable devices,
      and send the lists (or the failure's message) to the panel. */
  function FetchData(ctx: string, token: Value, focus: Focus, net: Api.Request -> Api.Reply)
    : (e: Effects)
    ensures e.calls == [Api.UserInfo(token)] && |e.out| == 1 && e.out[0].SendToInspector?
    ensures e.out[0] == ToInspector(focus, e.out[0].payload, Some(ctx), None)
    ensures e.out[0].payload.DataList? <==>
              Api.Classify(net(Api.UserInfo(token))).Ok?
              && Api.AccountLists(Api.Classify(net(Api.UserInfo(token))).value).Ok?
    ensures e.out[0].payload.DataList? ==>
              e.out[0].payload.lists == Api.AccountLists(Api.Classify(net(Api.UserInfo(token))).value).value
    ensures Api.Classify(net(Api.UserInfo(token))).Err? ==>
              e.out[0].payload == ErrorReport(Api.Message(Api.Classify(net(Api.UserInfo(token))).error))
    ensures var reply := Api.Classify(net(Api.UserInfo(token)));
            reply.Ok? && Api.AccountLists(reply.value).Err? ==>
              e.out[0].payload == ErrorReport(Api.Message(Api.AccountLists(reply.value).error))
  {
    var request := Api.UserInfo(token);
    var payload :=
      match Api.Classify(net(request))
      case Err(f) => ErrorReport(Api.Message(f))
      case Ok(data) =>
        (match Api.AccountLists(data)
         case Err(f) => ErrorReport(Api.Message(f))
         case Ok(lists) => DataList(lists));
    Effects([ToInspector(focus, payload, Some(ctx), None)], [request])
  }

  /** `sendToPlugin`: a settings update or a data request from the panel;
      anything else is ignored. Reading the type of a missing payload throws. */
  function SendToPlugin(st: ControlState, ctx: string, payload: Value, globals: Value, focus: Focus,
                        net: Api.Request -> Api.Reply): (r: Result<(ControlState, Effects)>)
    ensures r.Err? <==> Nullish(payload)
    ensures r.Ok? ==> r.value.0.timers == st.timers
    ensures r.Ok? ==> forall c :: c in r.value.1.out ==> ButtonCommand(c, ctx) || c.SetSettings? || c.SendToInspector?
    ensures r.Ok? && Get(payload, "type") == Str("updateSettings") ==>
              var merged := Merge(st.data, ctx, Get(payload, "settings"));
              && r.value.0.data == merged
              && |r.value.1.out| > 0 && r.value.1.out[0] == SetSettings(ctx, merged[ctx])
              && (|r.value.1.calls| > 0 <==> (Get(merged[ctx], "type") == Str("device") && PollStart(merged, globals, ctx).Some?))
    ensures r.Ok? && Get(payload, "type") == Str("updateSettings") ==>
              var merged := Merge(st.data, ctx, Get(payload, "settings"));
              var refresh := Refresh(merged, globals, ctx, net);
              && (Get(merged[ctx], "type") == Str("device") ==>
                    r.value.1.out[1..] == refresh.out && r.value.1.calls == refresh.calls)
              && (Get(merged[ctx], "type") != Str("device") ==>
                    r.value.1 == Effects([SetSettings(ctx, merged[ctx])], []))
    ensures r.Ok? && Get(payload, "type") == Str("fetchData") ==>
              r.value.0 == st && r.value.1 == FetchData(ctx, Get(payload, "token"), focus, net)
    ensures r.Ok? && Get(payload, "type") != Str("updateSettings") && Get(payload, "type") != Str("fetchData") ==>
              r.value == (st, NoEffects)
  {
    if Nullish(payload) then Err(TypeError)
    else
      var kind := Get(payload, "type");
      if kind == Str("updateSettings") then
        var data := Merge(st.data, ctx, Get(payload, "settings"));
        var refresh := if Get(data[ctx], "type") == Str("device") then Refresh(data, globals, ctx, net) else NoEffects;
        Ok((st.(data := data), Then(Effects([SetSettings(ctx, data[ctx])], []), refresh)))
      else if kind == Str("fetchData") then
        Ok((st, FetchData(ctx, Get(payload, "token"), focus, net)))
      else Ok((st, NoEffects))
  }

  // ---------------------------------------------------------------- properties

  /** The placeholder type has no capital letter. */
  lemma PlaceholderLowercase()
    ensures forall i :: 0 <= i < |PlaceholderKind| ==> !('A' <= PlaceholderKind[i] <= 'Z')
  {
  }

  /** The placeholder type lacks every letter `Icons.FallsThrough` asks about. */
  lemma PlaceholderLacksLetters()
    ensures 'l' !in PlaceholderKind && 'k' !in PlaceholderKind && 'w' !in PlaceholderKind
    ensures 'm' !in PlaceholderKind && 'a' !in PlaceholderKind && 'f' !in PlaceholderKind
    ensures 'u' !in PlaceholderKind && 'b' !in PlaceholderKind && 'g' !in PlaceholderKind
    ensures 'n' !in PlaceholderKind
  {
    assert forall j :: 0 <= j < |PlaceholderKind| ==>
      PlaceholderKind[j] in {'d', 'e', 'v', 'i', 'c', 's', '.', 't', 'y', 'p', 'o', 'h', 'r'};
  }

  /** "tv" does not occur in the placeholder type: its only 'v' follows an 'e'. */
  lemma PlaceholderAvoidsTv()
    ensures !Icons.Contains(PlaceholderKind, "tv")
  {
    assert forall j :: 0 <= j < |PlaceholderKind| ==> PlaceholderKind[j] != 'v' || j == 2;
    assert PlaceholderKind[1] == 'e';
    Icons.OccurrenceHasPair(PlaceholderKind, "tv");
  }

  /** "door" does not occur in the placeholder type: its only 'd' is followed by an 'e'. */
  lemma PlaceholderAvoidsDoor()
    ensures !Icons.Contains(PlaceholderKind, "door")
  {
    assert forall j :: 0 <= j < |PlaceholderKind| ==> PlaceholderKind[j] != 'd' || j == 0;
    assert PlaceholderKind[1] == 'e';
    Icons.OccurrenceHasPair(PlaceholderKind, "door");
  }

  /** The placeholder a device button shows on appearing is what
      `getIcon(PlaceholderKind, false)` returns. */
  lemma PlaceholderIconIsGetIcon(kind: string)
    requires kind == PlaceholderKind
    ensures Icons.GetIcon(kind, false) == PlaceholderIcon
  {
    PlaceholderLowercase();
    PlaceholderLacksLetters();
    PlaceholderAvoidsTv();
    PlaceholderAvoidsDoor();
    Icons.FallsThroughIcon(kind);
  }

  /** Applying the same settings update twice leaves the same settings as once. */
  lemma MergeIdempotent(data: map<string, Value>, ctx: string, update: Value)
    ensures Merge(Merge(data, ctx, update), ctx, update) == Merge(data, ctx, update)
  {
    var once := Merge(data, ctx, update);
    var a := Fields(Lookup(data, ctx));
    var b := Fields(update);
    assert Fields(Lookup(once, ctx)) == a + b;
    assert (a + b) + b == a + b;
  }

  /** Repeating an `updateSettings` message repeats its effects and changes nothing further. */
  lemma UpdateSettingsIdempotent(st: ControlState, ctx: string, payload: Value, globals: Value, focus: Focus,
                                 net: Api.Request -> Api.Reply)
    requires !Nullish(payload) && Get(payload, "type") == Str("updateSettings")
    ensures var once := SendToPlugin(st, ctx, payload, globals, focus, net).value;
            var twice := SendToPlugin(once.0, ctx, payload, globals, focus, net).value;
            twice == once
  {
    MergeIdempotent(st.data, ctx, Get(payload, "settings"));
  }

  /** Background refreshes never alert the user, whatever the network does. */
  lemma RefreshNeverAlerts(data: map<string, Value>, globals: Value, ctx: string, net: Api.Request -> Api.Reply)
    ensures forall c :: c in Refresh(data, globals, ctx, net).out ==> !c.ShowAlert? && !c.ShowOk?
  {
  }

  /** The refresh has no guard against the button having gone: a read that
      settles after `willDisappear` still writes the removed button's state. */
  lemma LateCompletionStillWrites(st: ControlState, globals: Value, ctx: string, reply: Api.Reply)
    requires PollStart(st.data, globals, ctx).Some?
    requires Api.ReadState(reply).Ok? && Api.ReadState(reply).value.Some?
    ensures ctx !in WillDisappear(st, ctx).data
    ensures PollFinish(PollStart(st.data, globals, ctx).value, reply)[0].SetState?
    ensures PollFinish(PollStart(st.data, globals, ctx).value, reply)[0].context == ctx
  {
  }

  /** A device record of type `kind` whose on/off capability reads false. */
  function SwitchedOff(kind: string): Value {
    Obj(map["type" := Str(kind),
            "capabilities" := Arr([Obj(map["type" := Str(Api.OnOff),
                                           "state" := Obj(map["instance" := Str("on"), "value" := Bool(false)])])])])
  }

  /** Reading that record yields state false and its type. */
  lemma SwitchedOffReadsOff(kind: string)
    ensures Api.ReadState(Api.Response(200, "{...}", Some(SwitchedOff(kind))))
         == Ok(Some(Api.DeviceState(Bool(false), Str(kind))))
  {
    var cap := Obj(map["type" := Str(Api.OnOff),
                       "state" := Obj(map["instance" := Str("on"), "value" := Bool(false)])]);
    assert Api.FindOnOff([cap]) == Ok(Some(cap));
  }

  /** The device branch on a device that reads as off. */
  lemma PressDeviceTurnsOn(ctx: string, net: Api.Request -> Api.Reply, kind: string)
    requires net(Api.ReadDevice(Str("T"), Str("D"))) == Api.Response(200, "{...}", Some(SwitchedOff(kind)))
    requires net(Api.SetOnOff(Str("T"), Api.ToggleBody(Str("D"), true))).Response?
    requires Api.Successful(net(Api.SetOnOff(Str("T"), Api.ToggleBody(Str("D"), true))).status)
    ensures PressDevice(ctx, Str("T"), Str("D"), net)
         == Effects([SetState(ctx, 1), SetImage(ctx, Icons.GetIcon(kind, true))],
                    [Api.ReadDevice(Str("T"), Str("D")), Api.SetOnOff(Str("T"), Api.ToggleBody(Str("D"), true))])
  {
    SwitchedOffReadsOff(kind);
  }

  /** A press on a device that reads as off switches it on and shows state 1, with no alert. */
  lemma PressTurnsDeviceOn(data: map<string, Value>, globals: Value, ctx: string, net: Api.Request -> Api.Reply,
                           kind: string)
    requires !Nullish(Lookup(data, ctx)) && !Nullish(globals)
    requires Get(Lookup(data, ctx), "type") == Str("device") && Get(Lookup(data, ctx), "objectId") == Str("D")
    requires Get(globals, "token") == Str("T")
    requires net(Api.ReadDevice(Str("T"), Str("D"))) == Api.Response(200, "{...}", Some(SwitchedOff(kind)))
    requires net(Api.SetOnOff(Str("T"), Api.ToggleBody(Str("D"), true))).Response?
    requires Api.Successful(net(Api.SetOnOff(Str("T"), Api.ToggleBody(Str("D"), true))).status)
    ensures KeyUp(data, globals, ctx, net).calls
         == [Api.ReadDevice(Str("T"), Str("D")), Api.SetOnOff(Str("T"), Api.ToggleBody(Str("D"), true))]
    ensures KeyUp(data, globals, ctx, net).out
         == [SetState(ctx, 1), SetImage(ctx, Icons.GetIcon(kind, true))]
  {
    PressDeviceTurnsOn(ctx, net, kind);
    assert KeyUp(data, globals, ctx, net) == PressDevice(ctx, Str("T"), Str("D"), net);
  }

  /** A successful press on a device button shows what the next refresh
      shows once the cloud reports the toggled state: the press and the
      poll agree on state and icon. */
  lemma PressAgreesWithRefresh(data: map<string, Value>, globals: Value, ctx: string,
                               net: Api.Request -> Api.Reply, later: Api.Request -> Api.Reply)
    requires PollStart(data, globals, ctx).Some?
    requires var p := PollStart(data, globals, ctx).value;
             var read := Api.ReadState(net(Api.ReadDevice(p.token, p.device)));
             && read.Ok? && read.value.Some? && read.value.value.kind.Str?
             && Api.Classify(net(Api.SetOnOff(p.token, Api.ToggleBody(p.device, !Truthy(read.value.value.isOn))))).Ok?
             && Api.ReadState(later(Api.ReadDevice(p.token, p.device)))
                == Ok(Some(Api.DeviceState(Bool(!Truthy(read.value.value.isOn)), read.value.value.kind)))
    ensures KeyUp(data, globals, ctx, net).out != []
    ensures Refresh(data, globals, ctx, later).out == KeyUp(data, globals, ctx, net).out
  {
    var p := PollStart(data, globals, ctx).value;
    assert KeyUp(data, globals, ctx, net) == PressDevice(ctx, p.token, p.device, net);
  }

  /** Without a token a press alerts and makes no request. */
  lemma PressWithoutTokenAlerts(data: map<string, Value>, ctx: string, net: Api.Request -> Api.Reply)
    requires !Nullish(Lookup(data, ctx))
    ensures KeyUp(data, Obj(map[]), ctx, net) == Effects([ShowAlert(ctx)], [])
  {
  }
}

=== FILE: dispatch.dfy ===
/** The `Plugins` message handler. Every inbound message first spends the
    one-shot request for global settings; a parsed frame is then offered, in
    this order and not exclusively, to the handler its action names, to the
    global-settings overwrite, and to the plugin's own method named after the
    event. A throw at any step is caught and skips the steps after it. */
module Dispatch {
  import opened Js
  import opened Host
  import Api
  import Actions
  import Control

  /** A parsed inbound frame. `event` is None when absent or not a string. */
  datatype Frame = Frame(action: Value, event: Option<string>, context: string, payload: Value)

  /** The plugin object: its uuid, the one-shot flag, `Plugins.globalSettings`,
      the focused configuration panel and the `control` action's state. */
  datatype State = State(uuid: string, askGlobals: bool, globals: Value, focus: Focus,
                         control: Control.ControlState)

  function Start(uuid: string): (r: State)
    ensures r.uuid == uuid && r.askGlobals
  {
    State(uuid, true, Obj(map[]), Focus(None, None), Control.Empty)
  }

  // ---------------------------------------------------------------- routing

  /** `s.split('.').pop()`: the text after the last dot, or all of it. */
  function LastSegment(s: string): (r: string)
    ensures '.' !in r
    ensures |r| <= |s| && s[|s| - |r|..] == r
    ensures |r| < |s| ==> s[|s| - |r| - 1] == '.'
    ensures '.' !in s ==> r == s
  {
    if s == [] then []
    else if s[|s| - 1] == '.' then []
    else LastSegment(s[..|s| - 1]) + [s[|s| - 1]]
  }

  /** `data.action?.split('.').pop()`: no key without an action; anything
      but a string has no `split` to call. */
  function ActionKey(action: Value): (r: Result<Option<string>>)
    ensures r.Err? <==> !Nullish(action) && !action.Str?
    ensures r == Ok(None) <==> Nullish(action)
    ensures r.Ok? && r.value.Some? ==> action.Str? && r.value.value == LastSegment(action.s)
  {
    if Nullish(action) then Ok(None)
    else if action.Str? then Ok(Some(LastSegment(action.s)))
    else Err(TypeError)
  }

  /** The plugin property the `control` action is registered under. */
  const ControlKey := "control"

  /** The methods of `control` a host event can name. */
  const ControlEvents: set<string> :=
    {"willAppear", "didReceiveSettings", "willDisappear", "propertyInspectorDidAppear", "keyUp", "sendToPlugin"}

  /** The methods of the plugin object a host event can name. */
  const PluginMethods: set<string> :=
    {"setGlobalSettings", "getGlobalSettings", "setTitle", "setImage", "setState", "setSettings",
     "showAlert", "showOk", "sendToPropertyInspector", "openUrl"}

  /** `action && this[action] && this[action][data.event]`. */
  predicate Routed(key: Option<string>, event: Option<string>) {
    key == Some(ControlKey) && event.Some? && event.value in ControlEvents
  }

  /** What a frame reached, in order. */
  datatype Handled =
    | ActionHandler(key: string, event: string)
    | StoreGlobals
    | PluginMethod(event: string)

  /** A message's (or a run's) outcome: the new state, the commands sent to
      the host, the requests made, and the handlers reached. */
  datatype Step = Step(state: State, out: seq<Command>, calls: seq<Api.Request>, trace: seq<Handled>)

  /** The parsed frame as `setGlobalSettings(data)` receives it. */
  function FrameValue(f: Frame): Value {
    Obj(map["action" := f.action,
            "event" := (if f.event.Some? then Str(f.event.value) else Undefined),
            "context" := Str(f.context),
            "payload" := f.payload])
  }

  // ---------------------------------------------------------------- handlers

  /** `this.control[event](data)`. A missing payload makes `willAppear`,
      `didReceiveSettings` and `sendToPlugin` throw before they change anything. */
  function HandleControl(s: State, f: Frame, net: Api.Request -> Api.Reply): (r: Result<(State, Effects)>)
    requires f.action.Str? && f.event.Some? && f.event.value in ControlEvents
    ensures r.Err? <==> Nullish(f.payload) && f.event.value in {"willAppear", "didReceiveSettings", "sendToPlugin"}
    ensures r.Ok? ==> r.value.0.uuid == s.uuid && r.value.0.askGlobals == s.askGlobals && r.value.0.globals == s.globals
    ensures r.Ok? ==> forall c :: c in r.value.1.out ==> !c.GetGlobalSettings? && !c.SetGlobalSettings?
    ensures r.Ok? && f.event.value != "propertyInspectorDidAppear" ==> r.value.0.focus == s.focus
    ensures r.Ok? && f.event.value == "propertyInspectorDidAppear" ==>
              r.value.0.focus == Focus(Some(f.action.s), Some(f.context)) && r.value.0.control == s.control
    ensures f.event.value == "willAppear" && !Nullish(f.payload) ==>
              var (control, effects) := Control.WillAppear(s.control, f.context, Get(f.payload, "settings"), s.globals, net);
              r == Ok((s.(control := control), effects))
    ensures f.event.value == "didReceiveSettings" && !Nullish(f.payload) ==>
              r == Ok((s.(control := Control.DidReceiveSettings(s.control, f.context, Get(f.payload, "settings"))), NoEffects))
    ensures f.event.value == "willDisappear" ==>
              r == Ok((s.(control := Control.WillDisappear(s.control, f.context)), NoEffects))
    ensures f.event.value == "propertyInspectorDidAppear" ==>
              r == Ok((s.(focus := Actions.Inspect(Some(f.action.s), f.context)), NoEffects))
    ensures f.event.value == "keyUp" ==> r == Ok((s, Control.KeyUp(s.control.data, s.globals, f.context, net)))
    ensures f.event.value == "sendToPlugin" && !Nullish(f.payload) ==>
              var sent := Control.SendToPlugin(s.control, f.context, f.payload, s.globals, s.focus, net).value;
              r == Ok((s.(control := sent.0), sent.1))
  {
    var e := f.event.value;
    if e == "willAppear" then
      if Nullish(f.payload) then Err(TypeError)
      else
        var (control, effects) := Control.WillAppear(s.control, f.context, Get(f.payload, "settings"), s.globals, net);
        SparesGlobals(effects.out, f.context);
        Ok((s.(control := control), effects))
    else if e == "didReceiveSettings" then
      match Prop(f.payload, "settings")
      case Err(failure) => Err(failure)
      case Ok(settings) => Ok((s.(control := Control.DidReceiveSettings(s.control, f.context, settings)), NoEffects))
    else if e == "willDisappear" then
      Ok((s.(control := Control.WillDisappear(s.control, f.context)), NoEffects))
    else if e == "propertyInspectorDidAppear" then
      Ok((s.(focus := Actions.Inspect(Some(f.action.s), f.context)), NoEffects))
    else if e == "keyUp" then
      var effects := Control.KeyUp(s.control.data, s.globals, f.context, net);
      SparesGlobals(effects.out, f.context);
      Ok((s, effects))
    else
      match Control.SendToPlugin(s.control, f.context, f.payload, s.globals, s.focus, net)
      case Err(failure) => Err(failure)
      case Ok((control, effects)) =>
        SparesGlobals(effects.out, f.context);
        Ok((s.(control := control), effects))
  }

  /** Button commands, settings writes and panel messages never touch the
      global settings. */
  lemma SparesGlobals(out: seq<Command>, ctx: string)
    requires forall c :: c in out ==> Control.ButtonCommand(c, ctx) || c.SetSettings? || c.SendToInspector?
    ensures forall c :: c in out ==> !c.GetGlobalSettings? && !c.SetGlobalSettings?
  {
  }

  /** One `message` event. */
  function OnMessage(s: State, msg: Option<Frame>, net: Api.Request -> Api.Reply): (r: Step)
    ensures !r.state.askGlobals && r.state.uuid == s.uuid
    ensures s.askGlobals ==> |r.out| > 0 && r.out[0] == GetGlobalSettings(s.uuid)
    ensures msg.None? ==> r == Step(s.(askGlobals := false), if s.askGlobals then [GetGlobalSettings(s.uuid)] else [], [], [])
    ensures forall e :: ActionHandler(ControlKey, e) in r.trace <==>
              msg.Some? && ActionKey(msg.value.action).Ok? && Routed(ActionKey(msg.value.action).value, msg.value.event)
              && msg.value.event == Some(e)
    ensures StoreGlobals in r.trace <==>
              msg.Some? && ActionKey(msg.value.action).Ok? && msg.value.event == Some("didReceiveGlobalSettings")
    ensures forall e :: PluginMethod(e) in r.trace <==>
              msg.Some? && ActionKey(msg.value.action).Ok? && msg.value.event == Some(e) && e in PluginMethods
    ensures msg.Some? && ActionKey(msg.value.action).Ok? ==>
              var rest := Route(s.(askGlobals := false), msg.value, ActionKey(msg.value.action).value, net);
              && r.state == rest.state
              && r.out == (if s.askGlobals then [GetGlobalSettings(s.uuid)] else []) + rest.out
              && r.calls == rest.calls
  {
    var flag := if s.askGlobals then [GetGlobalSettings(s.uuid)] else [];
    var s0 := s.(askGlobals := false);
    if msg.None? then Step(s0, flag, [], [])
    else
      match ActionKey(msg.value.action)
      case Err(_) => Step(s0, flag, [], [])
      case Ok(key) =>
        var rest := Route(s0, msg.value, key, net);
        Step(rest.state, flag + rest.out, rest.calls, rest.trace)
  }

  /** A frame whose action key was read without a throw, offered to the
      three routes in order. */
  function Route(s: State, f: Frame, key: Option<string>, net: Api.Request -> Api.Reply): (r: Step)
    requires key.Some? ==> f.action.Str?
    ensures r.state.askGlobals == s.askGlobals && r.state.uuid == s.uuid
    ensures forall e :: ActionHandler(ControlKey, e) in r.trace <==> Routed(key, f.event) && f.event == Some(e)
    ensures StoreGlobals in r.trace <==> f.event == Some("didReceiveGlobalSettings")
    ensures forall e :: PluginMethod(e) in r.trace <==> f.event == Some(e) && e in PluginMethods
    ensures Routed(key, f.event) ==>
              var handled := HandleControl(s, f, net);
              && (handled.Err? ==> r.state == s && r.out == [] && r.calls == [])
              && (handled.Ok? ==> r.state == handled.value.0 && r.out == handled.value.1.out
                                  && r.calls == handled.value.1.calls)
  {
    RoutesDisjoint();
    var routed := Routed(key, f.event);
    var reached := if routed then [ActionHandler(ControlKey, f.event.value)] else [];
    var first := if routed then HandleControl(s, f, net) else Ok((s, NoEffects));
    match first
    case Err(_) => Step(s, [], [], reached)
    case Ok((s1, e1)) =>
      if f.event == Some("didReceiveGlobalSettings") then
        // `data.payload.settings` throws on a missing payload.
        if Nullish(f.payload) then Step(s1, e1.out, e1.calls, reached + [StoreGlobals])
        else Step(s1.(globals := Get(f.payload, "settings")), e1.out, e1.calls, reached + [StoreGlobals])
      else if f.event.Some? && f.event.value in PluginMethods then
        var (s2, out) := PluginCall(s1, f);
        Step(s2, e1.out + out, e1.calls, reached + [PluginMethod(f.event.value)])
      else Step(s1, e1.out, e1.calls, reached)
  }

  /** `this[data.event](data)` on the plugin object itself. Only the two
      global-settings methods are modelled; the others write frames whose
      context is the whole message and change no state. */
  function PluginCall(s: State, f: Frame): (r: (State, seq<Command>))
    requires f.event.Some? && f.event.value in PluginMethods
    ensures f.event.value == "getGlobalSettings" ==> r == (s, [GetGlobalSettings(s.uuid)])
    ensures f.event.value == "setGlobalSettings" ==>
              r == (s.(globals := FrameValue(f)), [SetGlobalSettings(s.uuid, FrameValue(f))])
    ensures f.event.value !in {"getGlobalSettings", "setGlobalSettings"} ==> r == (s, [])
  {
    if f.event.value == "getGlobalSettings" then (s, [GetGlobalSettings(s.uuid)])
    else if f.event.value == "setGlobalSettings" then SetGlobals(s, FrameValue(f))
    else (s, [])
  }

  /** `setGlobalSettings(payload)`: store and persist the new global settings. */
  function SetGlobals(s: State, payload: Value): (r: (State, seq<Command>))
    ensures r.0 == s.(globals := payload)
    ensures r.1 == [SetGlobalSettings(s.uuid, payload)]
  {
    (s.(globals := payload), [SetGlobalSettings(s.uuid, payload)])
  }

  /** A session: messages handled one after another. */
  function Run(s: State, msgs: seq<Option<Frame>>, net: Api.Request -> Api.Reply): (r: Step)
    ensures r.state.uuid == s.uuid
    ensures msgs != [] ==> !r.state.askGlobals
    ensures msgs == [] ==> r == Step(s, [], [], [])
    decreases |msgs|
  {
    if msgs == [] then Step(s, [], [], [])
    else
      var first := OnMessage(s, msgs[0], net);
      var rest := Run(first.state, msgs[1..], net);
      Step(rest.state, first.out + rest.out, first.calls + rest.calls, first.trace + rest.trace)
  }

  // ---------------------------------------------------------------- properties

  /** A qualified action name routes by its final component. */
  lemma {:induction false} LastSegmentOfQualified(prefix: string, name: string)
    requires '.' !in name
    ensures LastSegment(prefix + "." + name) == name
    decreases |name|
  {
    var s := prefix + "." + name;
    if name == [] {
      assert s[|s| - 1] == '.';
    } else {
      var init := name[..|name| - 1];
      assert s[..|s| - 1] == prefix + "." + init;
      assert '.' !in init by {
        forall i | 0 <= i < |init| ensures init[i] != '.' {
          assert init[i] == name[i];
        }
      }
      LastSegmentOfQualified(prefix, init);
      assert name == init + [name[|name| - 1]];
    }
  }

  lemma ControlKeyUndotted()
    ensures '.' !in ControlKey
  {
    forall i | 0 <= i < |ControlKey| ensures ControlKey[i] != '.' {
      assert ControlKey[i] in {'c', 'o', 'n', 't', 'r', 'l'};
    }
  }

  /** Any action id ending in `.control` reaches the `control` handler for
      each event it defines. */
  lemma ControlFramesRouted(prefix: string, f: Frame, net: Api.Request -> Api.Reply, s: State)
    requires f.action == Str(prefix + "." + ControlKey)
    requires f.event.Some? && f.event.value in ControlEvents
    ensures ActionHandler(ControlKey, f.event.value) in OnMessage(s, Some(f), net).trace
  {
    ControlKeyUndotted();
    LastSegmentOfQualified(prefix, ControlKey);
    assert ActionKey(f.action) == Ok(Some(ControlKey));
    assert Routed(Some(ControlKey), f.event);
  }

  /** A frame for any `….control` button applies the control handler of its
      event: the new state and the commands and requests are the handler's,
      after the pending global-settings request; a throw leaves the state as
      it was, with the flag spent. */
  lemma ControlFrameApplied(prefix: string, f: Frame, net: Api.Request -> Api.Reply, s: State)
    requires f.action == Str(prefix + "." + ControlKey)
    requires f.event.Some? && f.event.value in ControlEvents
    ensures var r := OnMessage(s, Some(f), net);
            var s0 := s.(askGlobals := false);
            var flag := if s.askGlobals then [GetGlobalSettings(s.uuid)] else [];
            var handled := HandleControl(s0, f, net);
            && (handled.Ok? ==> r.state == handled.value.0 && r.out == flag + handled.value.1.out
                                && r.calls == handled.value.1.calls)
            && (handled.Err? ==> r.state == s0 && r.out == flag && r.calls == [])
  {
    ControlKeyUndotted();
    LastSegmentOfQualified(prefix, ControlKey);
    assert ActionKey(f.action) == Ok(Some(ControlKey));
    assert Routed(Some(ControlKey), f.event);
  }

  /** A key press on any `….control` button sends exactly what `keyUp`
      sends, after the pending global-settings request, and changes no state. */
  lemma KeyUpFrameRunsKeyUp(prefix: string, f: Frame, net: Api.Request -> Api.Reply, s: State)
    requires f.action == Str(prefix + "." + ControlKey)
    requires f.event == Some("keyUp")
    ensures var r := OnMessage(s, Some(f), net);
            var pressed := Control.KeyUp(s.control.data, s.globals, f.context, net);
            && r.state == s.(askGlobals := false)
            && r.out == (if s.askGlobals then [GetGlobalSettings(s.uuid)] else []) + pressed.out
            && r.calls == pressed.calls
  {
    ControlFrameApplied(prefix, f, net, s);
  }

  /** The requests for global settings among a list of commands. */
  function Requests(out: seq<Command>): nat {
    if out == [] then 0 else (if out[0].GetGlobalSettings? then 1 else 0) + Requests(out[1..])
  }

  lemma {:induction false} RequestsAppend(a: seq<Command>, b: seq<Command>)
    ensures Requests(a + b) == Requests(a) + Requests(b)
  {
    if a == [] {
      assert a + b == b;
    } else {
      assert (a + b)[1..] == a[1..] + b;
      RequestsAppend(a[1..], b);
    }
  }

  lemma {:induction false} NoRequests(out: seq<Command>)
    requires forall c :: c in out ==> !c.GetGlobalSettings?
    ensures Requests(out) == 0
  {
    if out != [] {
      assert out[0] in out;
      assert forall c :: c in out[1..] ==> c in out;
      NoRequests(out[1..]);
    }
  }

  /** A frame that reaches the plugin's own `getGlobalSettings` method. */
  predicate AsksAgain(msg: Option<Frame>) {
    msg.Some? && msg.value.event == Some("getGlobalSettings") && ActionKey(msg.value.action).Ok?
  }

  function Asks(msgs: seq<Option<Frame>>): nat {
    if msgs == [] then 0 else (if AsksAgain(msgs[0]) then 1 else 0) + Asks(msgs[1..])
  }

  /** The three routes answer to disjoint events. */
  lemma RoutesDisjoint()
    ensures "didReceiveGlobalSettings" !in ControlEvents && "didReceiveGlobalSettings" !in PluginMethods
    ensures forall e :: e in ControlEvents ==> e !in PluginMethods
  {
  }

  lemma RouteRequests(s: State, f: Frame, key: Option<string>, net: Api.Request -> Api.Reply)
    requires key.Some? ==> f.action.Str?
    ensures Requests(Route(s, f, key, net).out) == if f.event == Some("getGlobalSettings") then 1 else 0
  {
    var r := Route(s, f, key, net);
    RoutesDisjoint();
    if Routed(key, f.event) {
      var first := HandleControl(s, f, net);
      assert f.event != Some("getGlobalSettings");
      if first.Ok? {
        NoRequests(first.value.1.out);
        assert r.out == first.value.1.out;
      } else {
        assert r.out == [];
      }
    } else if f.event == Some("getGlobalSettings") {
      assert r.out == [] + [GetGlobalSettings(s.uuid)];
      assert Requests(r.out) == 1;
    } else if f.event.Some? && f.event.value in PluginMethods {
      assert r.out == [] + PluginCall(s, f).1;
      NoRequests(PluginCall(s, f).1);
    } else {
      assert r.out == [];
    }
  }

  /** One message: the one-shot request, plus one per frame naming the
      plugin's own `getGlobalSettings`. */
  lemma MessageRequests(s: State, msg: Option<Frame>, net: Api.Request -> Api.Reply)
    ensures Requests(OnMessage(s, msg, net).out) == (if s.askGlobals then 1 else 0) + (if AsksAgain(msg) then 1 else 0)
  {
    var flag := if s.askGlobals then [GetGlobalSettings(s.uuid)] else [];
    assert Requests(flag) == if s.askGlobals then 1 else 0 by {
      if s.askGlobals {
        assert flag[1..] == [];
      }
    }
    if msg.Some? && ActionKey(msg.value.action).Ok? {
      var s0 := s.(askGlobals := false);
      var rest := Route(s0, msg.value, ActionKey(msg.value.action).value, net);
      RouteRequests(s0, msg.value, ActionKey(msg.value.action).value, net);
      RequestsAppend(flag, rest.out);
    }
  }

  /** Over a session the flag asks once, at the first message, and never again. */
  lemma {:induction false} RunRequests(s: State, msgs: seq<Option<Frame>>, net: Api.Request -> Api.Reply)
    ensures Requests(Run(s, msgs, net).out) == (if s.askGlobals && msgs != [] then 1 else 0) + Asks(msgs)
    decreases |msgs|
  {
    if msgs != [] {
      var first := OnMessage(s, msgs[0], net);
      MessageRequests(s, msgs[0], net);
      RunRequests(first.state, msgs[1..], net);
      RequestsAppend(first.out, Run(first.state, msgs[1..], net).out);
    }
  }

  lemma {:induction false} NoAsks(msgs: seq<Option<Frame>>)
    requires forall i :: 0 <= i < |msgs| ==> !AsksAgain(msgs[i])
    ensures Asks(msgs) == 0
  {
    if msgs != [] {
      assert !AsksAgain(msgs[0]);
      NoAsks(msgs[1..]);
    }
  }

  /** From start-up (or any state whose flag is still set), a session of at
      least one message requests global settings exactly once, first, unless
      a frame itself names `getGlobalSettings`. */
  lemma GlobalsRequestedOnce(s: State, msgs: seq<Option<Frame>>, net: Api.Request -> Api.Reply)
    requires s.askGlobals && msgs != []
    requires forall i :: 0 <= i < |msgs| ==> !AsksAgain(msgs[i])
    ensures Requests(Run(s, msgs, net).out) == 1
    ensures Run(s, msgs, net).out[0] == GetGlobalSettings(s.uuid)
  {
    RunRequests(s, msgs, net);
    NoAsks(msgs);
    RunOpensWithRequest(s, msgs, net);
  }

  /** While the flag is set, the first thing a session sends is the request. */
  lemma RunOpensWithRequest(s: State, msgs: seq<Option<Frame>>, net: Api.Request -> Api.Reply)
    requires s.askGlobals && msgs != []
    ensures |Run(s, msgs, net).out| > 0 && Run(s, msgs, net).out[0] == GetGlobalSettings(s.uuid)
  {
    var first := OnMessage(s, msgs[0], net);
    var rest := Run(first.state, msgs[1..], net);
    assert Run(s, msgs, net).out == first.out + rest.out;
    assert (first.out + rest.out)[0] == first.out[0];
  }

  /** An unparseable frame, or one whose action is not a string, only spends the flag. */
  lemma MalformedOnlyClearsFlag(s: State, msg: Option<Frame>, net: Api.Request -> Api.Reply)
    requires msg.None? || ActionKey(msg.value.action).Err?
    ensures OnMessage(s, msg, net)
         == Step(s.(askGlobals := false), if s.askGlobals then [GetGlobalSettings(s.uuid)] else [], [], [])
  {
  }

  /** A frame that no route accepts changes nothing but the flag. */
  lemma UnknownFrameChangesNothing(s: State, f: Frame, net: Api.Request -> Api.Reply)
    requires ActionKey(f.action).Ok? && !Routed(ActionKey(f.action).value, f.event)
    requires f.event != Some("didReceiveGlobalSettings")
    requires f.event.Some? ==> f.event.value !in PluginMethods
    ensures OnMessage(s, Some(f), net)
         == Step(s.(askGlobals := false), if s.askGlobals then [GetGlobalSettings(s.uuid)] else [], [], [])
  {
  }

  /** `didReceiveGlobalSettings` stores exactly `payload.settings`, whatever
      the action names, and touches nothing else. */
  lemma GlobalsOverwritten(s: State, f: Frame, net: Api.Request -> Api.Reply)
    requires ActionKey(f.action).Ok? && f.event == Some("didReceiveGlobalSettings") && !Nullish(f.payload)
    ensures OnMessage(s, Some(f), net).state == s.(askGlobals := false, globals := Get(f.payload, "settings"))
    ensures OnMessage(s, Some(f), net).trace == [StoreGlobals]
  {
    RoutesDisjoint();
    var s0 := s.(askGlobals := false);
    var key := ActionKey(f.action).value;
    assert !Routed(key, f.event);
    assert Route(s0, f, key, net) == Step(s0.(globals := Get(f.payload, "settings")), [], [], [] + [StoreGlobals]);
  }

  /** Without a payload the overwrite throws and the old settings stay. */
  lemma GlobalsKeptOnMissingPayload(s: State, f: Frame, net: Api.Request -> Api.Reply)
    requires ActionKey(f.action).Ok? && f.event == Some("didReceiveGlobalSettings") && Nullish(f.payload)
    ensures OnMessage(s, Some(f), net).state == s.(askGlobals := false)
  {
  }

  /** What `setGlobalSettings` keeps is what it persists. */
  lemma SetGlobalsPersistsStored(s: State, payload: Value)
    ensures forall c :: c in SetGlobals(s, payload).1 ==>
              c == SetGlobalSettings(s.uuid, SetGlobals(s, payload).0.globals)
    ensures SetGlobals(s, payload).0.(globals := s.globals) == s
  {
  }

  /** A frame whose event names `setGlobalSettings` hands the whole frame to
      the method, which stores and persists it as the global settings. */
  lemma SetGlobalsEventStoresFrame(s: State, f: Frame, net: Api.Request -> Api.Reply)
    requires ActionKey(f.action).Ok? && f.event == Some("setGlobalSettings")
    ensures OnMessage(s, Some(f), net).state == s.(askGlobals := false, globals := FrameValue(f))
    ensures OnMessage(s, Some(f), net).out
         == (if s.askGlobals then [GetGlobalSettings(s.uuid)] else []) + [SetGlobalSettings(s.uuid, FrameValue(f))]
  {
    SetGlobalsRoute(s.(askGlobals := false), f, ActionKey(f.action).value, net);
  }

  /** The routes of a `setGlobalSettings` frame: only the plugin method runs. */
  lemma SetGlobalsRoute(s: State, f: Frame, key: Option<string>, net: Api.Request -> Api.Reply)
    requires key.Some? ==> f.action.Str?
    requires f.event == Some("setGlobalSettings")
    ensures Route(s, f, key, net).state == s.(globals := FrameValue(f))
    ensures Route(s, f, key, net).out == [SetGlobalSettings(s.uuid, FrameValue(f))]
  {
    RoutesDisjoint();
    assert !Routed(key, f.event);
    assert f.event.value in PluginMethods && f.event.value != "getGlobalSettings";
    var call := PluginCall(s, f);
    assert call == (s.(globals := FrameValue(f)), [SetGlobalSettings(s.uuid, FrameValue(f))]);
    assert Route(s, f, key, net).out == [] + call.1;
  }

  // ---------------------------------------------------------------- timers

  ghost predicate Invariant(s: State) {
    Control.TimersOk(s.control.timers)
  }

  lemma HandleControlKeepsTimers(s: State, f: Frame, net: Api.Request -> Api.Reply)
    requires f.action.Str? && f.event.Some? && f.event.value in ControlEvents
    requires Invariant(s)
    ensures HandleControl(s, f, net).Ok? ==> Invariant(HandleControl(s, f, net).value.0)
  {
    var e := f.event.value;
    if e == "willAppear" && !Nullish(f.payload) {
      Control.StartPollingKeepsTimersOk(s.control.timers, f.context);
    } else if e == "willDisappear" {
      Control.StopPollingKeepsTimersOk(s.control.timers, f.context);
    }
  }

  lemma RouteKeepsTimers(s: State, f: Frame, key: Option<string>, net: Api.Request -> Api.Reply)
    requires key.Some? ==> f.action.Str?
    requires Invariant(s)
    ensures Invariant(Route(s, f, key, net).state)
  {
    if Routed(key, f.event) {
      HandleControlKeepsTimers(s, f, net);
    }
  }

  lemma OnMessageKeepsTimers(s: State, msg: Option<Frame>, net: Api.Request -> Api.Reply)
    requires Invariant(s)
    ensures Invariant(OnMessage(s, msg, net).state)
  {
    if msg.Some? && ActionKey(msg.value.action).Ok? {
      RouteKeepsTimers(s.(askGlobals := false), msg.value, ActionKey(msg.value.action).value, net);
    }
  }

  /** Every session keeps the timer registry consistent: each context has
      at most the one timer `intervals` holds for it. */
  lemma {:induction false} RunKeepsTimers(s: State, msgs: seq<Option<Frame>>, net: Api.Request -> Api.Reply)
    requires Invariant(s)
    ensures Invariant(Run(s, msgs, net).state)
    ensures forall c :: |Control.Pollers(Run(s, msgs, net).state.control.timers, c)| <= 1
    decreases |msgs|
  {
    if msgs != [] {
      OnMessageKeepsTimers(s, msgs[0], net);
      RunKeepsTimers(OnMessage(s, msgs[0], net).state, msgs[1..], net);
    } else {
      forall c ensures |Control.Pollers(s.control.timers, c)| <= 1 {
        Control.PollersOfOwner(s.control.timers, c);
      }
    }
  }

  lemma StartKeepsTimers(uuid: string)
    ensures Invariant(Start(uuid))
  {
    Control.NoTimersOk();
  }
}

=== FILE: emitter.dfy ===
/** `EventEmitter`: named events, each with an ordered list of listeners.
    Listeners are compared by identity, modelled as equality of `L`;
    emitting returns the listeners called, in the order they are called. */
module Emitter {

  datatype Emitter<L> = Emitter(events: map<string, seq<L>>)

  function Listeners<L>(e: Emitter<L>, event: string): seq<L> {
    if event in e.events then e.events[event] else []
  }

  /** `subscribe`: creates the event's list if needed and appends the listener. */
  function Subscribe<L>(e: Emitter<L>, event: string, listener: L): (r: Emitter<L>)
    ensures r.events.Keys == e.events.Keys + {event}
    ensures r.events[event] == Listeners(e, event) + [listener]
    ensures forall other :: other != event && other in e.events ==> r.events[other] == e.events[other]
  {
    Emitter(e.events[event := Listeners(e, event) + [listener]])
  }

  /** `list.filter(l => l !== listener)`. */
  function Without<L(==)>(list: seq<L>, listener: L): (r: seq<L>)
    ensures listener !in r
    ensures multiset(r) == multiset(list)[listener := 0]
    ensures |r| <= |list|
    ensures listener !in list ==> r == list
  {
    if list == [] then []
    else
      var rest := Without(list[1..], listener);
      assert list == [list[0]] + list[1..];
      if list[0] == listener then rest else [list[0]] + rest
  }

  /** `unsubscribe`: removes every occurrence of the listener; an event with
      no list is left as it is. */
  function Unsubscribe<L(==)>(e: Emitter<L>, event: string, listener: L): (r: Emitter<L>)
    ensures event !in e.events ==> r == e
    ensures r.events.Keys == e.events.Keys
    ensures event in e.events ==> listener !in r.events[event]
    ensures event in e.events ==> r.events[event] == Without(e.events[event], listener)
    ensures forall other :: other != event && other in e.events ==> r.events[other] == e.events[other]
  {
    if event !in e.events then e
    else Emitter(e.events[event := Without(e.events[event], listener)])
  }

  /** `emit`: the listeners called, in subscription order; none for an unknown event. */
  function Emit<L>(e: Emitter<L>, event: string): (r: seq<L>)
    ensures event !in e.events ==> r == []
  {
    Listeners(e, event)
  }

  /** A subscribed listener is called last, after everyone already there. */
  lemma SubscribeThenEmit<L>(e: Emitter<L>, event: string, listener: L)
    ensures Emit(Subscribe(e, event, listener), event) == Emit(e, event) + [listener]
  {
  }

  /** Unsubscribing undoes a subscription of a listener that was not there. */
  lemma UnsubscribeUndoesSubscribe<L>(e: Emitter<L>, event: string, listener: L)
    requires listener !in Listeners(e, event)
    ensures Emit(Unsubscribe(Subscribe(e, event, listener), event, listener), event) == Emit(e, event)
  {
    WithoutAppend(Listeners(e, event), listener);
  }

  lemma {:induction false} WithoutAppend<L>(list: seq<L>, listener: L)
    requires listener !in list
    ensures Without(list + [listener], listener) == list
  {
    if list != [] {
      assert (list + [listener])[1..] == list[1..] + [listener];
      WithoutAppend(list[1..], listener);
      assert list == [list[0]] + list[1..];
    }
  }

  /** Removal keeps the order of the listeners that stay. */
  lemma {:induction false} WithoutAppendDistributes<L>(a: seq<L>, b: seq<L>, listener: L)
    ensures Without(a + b, listener) == Without(a, listener) + Without(b, listener)
  {
    if a == [] {
      assert a + b == b;
    } else {
      assert (a + b)[1..] == a[1..] + b;
      WithoutAppendDistributes(a[1..], b, listener);
    }
  }
}

=== FILE: host.dfy ===
/** The host boundary: the commands the plugin sends to the host
    application, the frames they are written as, and the "focused
    configuration panel" those addressed to a panel fall back to. */
module Host {
  import opened Js
  import Icons
  import Api

  /** What a configuration panel is sent by the plugin. */
  datatype Inspector =
    | DataList(lists: Api.Lists)
    | ErrorReport(message: string)

  datatype Command =
    | GetGlobalSettings(uuid: string)
    | SetGlobalSettings(uuid: string, settings: Value)
    | SetTitle(context: string, title: string)
    | SetImage(context: string, icon: Icons.Icon)
    | SetState(context: string, state: int)
    | SetSettings(context: string, settings: Value)
    | ShowAlert(context: string)
    | ShowOk(context: string)
    | SendToInspector(action: Option<string>, target: Option<string>, payload: Inspector)
    | OpenUrl(url: string)

  /** Commands and network requests produced by one handler, in order. */
  datatype Effects = Effects(out: seq<Command>, calls: seq<Api.Request>)

  const NoEffects := Effects([], [])

  function Then(a: Effects, b: Effects): Effects {
    Effects(a.out + b.out, a.calls + b.calls)
  }

  /** The most recently focused configuration panel (`Actions.currentAction`,
      `Actions.currentContext`); None is the initial null. */
  datatype Focus = Focus(action: Option<string>, context: Option<string>)

  /** An explicit string argument that `x || fallback` keeps: present and non-empty. */
  predicate Given(x: Option<string>) {
    x.Some? && x.value != ""
  }

  /** `sendToPropertyInspector(payload, context, action)`: an explicit action
      or context wins, otherwise the focused panel's is used. */
  function ToInspector(focus: Focus, payload: Inspector, context: Option<string>, action: Option<string>): (r: Command)
    ensures r.SendToInspector? && r.payload == payload
    ensures Given(action) ==> r.action == action
    ensures !Given(action) ==> r.action == focus.action
    ensures Given(context) ==> r.target == context
    ensures !Given(context) ==> r.target == focus.context
  {
    SendToInspector(if Given(action) then action else focus.action,
                    if Given(context) then context else focus.context,
                    payload)
  }

  // ---------------------------------------------------------------- wire frames

  function OptStr(x: Option<string>): Value {
    if x.Some? then Str(x.value) else Null
  }

  function ReadOptStr(v: Value): Option<Option<string>> {
    match v
    case Null => Some(None)
    case Str(s) => Some(Some(s))
    case _ => None
  }

  function EntryValue(e: Api.Entry): Value {
    Obj(map["id" := e.id, "name" := e.name])
  }

  function EntryValues(es: seq<Api.Entry>): (r: seq<Value>)
    ensures |r| == |es|
  {
    if es == [] then [] else [EntryValue(es[0])] + EntryValues(es[1..])
  }

  function ReadEntries(vs: seq<Value>): Option<seq<Api.Entry>> {
    if vs == [] then Some([])
    else if !vs[0].Obj? then None
    else match ReadEntries(vs[1..])
      case None => None
      case Some(rest) => Some([Api.Entry(Get(vs[0], "id"), Get(vs[0], "name"))] + rest)
  }

  lemma {:induction false} EntriesRoundTrip(es: seq<Api.Entry>)
    ensures ReadEntries(EntryValues(es)) == Some(es)
  {
    if es != [] {
      EntriesRoundTrip(es[1..]);
      var vs := EntryValues(es);
      var e := es[0];
      assert vs == [EntryValue(e)] + EntryValues(es[1..]);
      assert vs[1..] == EntryValues(es[1..]);
      var m := map["id" := e.id, "name" := e.name];
      assert m["id"] == e.id && m["name"] == e.name;
      assert Api.Entry(Get(vs[0], "id"), Get(vs[0], "name")) == e;
      assert es == [e] + es[1..];
    }
  }

  function InspectorValue(p: Inspector): Value {
    match p
    case DataList(lists) =>
      Obj(map["type" := Str("dataList"),
              "scenarios" := Arr(EntryValues(lists.scenarios)),
              "devices" := Arr(EntryValues(lists.devices))])
    case ErrorReport(message) =>
      Obj(map["type" := Str("error"), "message" := Str(message)])
  }

  function ReadInspector(v: Value): Option<Inspector> {
    var kind := Get(v, "type");
    if kind == Str("dataList") && Get(v, "scenarios").Arr? && Get(v, "devices").Arr? then
      match (ReadEntries(Get(v, "scenarios").items), ReadEntries(Get(v, "devices").items))
      case (Some(s), Some(d)) => Some(DataList(Api.Lists(s, d)))
      case _ => None
    else if kind == Str("error") && Get(v, "message").Str? then
      Some(ErrorReport(Get(v, "message").s))
    else None
  }

  /** The frame `ws.send` writes for a command, before JSON stringification. */
  function Frame(c: Command): Value {
    match c
    case GetGlobalSettings(uuid) =>
      Obj(map["event" := Str("getGlobalSettings"), "context" := Str(uuid)])
    case SetGlobalSettings(uuid, settings) =>
      Obj(map["event" := Str("setGlobalSettings"), "context" := Str(uuid), "payload" := settings])
    case SetTitle(context, title) =>
      Obj(map["event" := Str("setTitle"), "context" := Str(context),
              "payload" := Obj(map["target" := Num(0), "title" := Str(title)])])
    case SetImage(context, icon) =>
      Obj(map["event" := Str("setImage"), "context" := Str(context),
              "payload" := Obj(map["target" := Num(0), "image" := Str(Icons.Wrap(icon))])])
    case SetState(context, state) =>
      Obj(map["event" := Str("setState"), "context" := Str(context),
              "payload" := Obj(map["state" := Num(state)])])
    case SetSettings(context, settings) =>
      Obj(map["event" := Str("setSettings"), "context" := Str(context), "payload" := settings])
    case ShowAlert(context) =>
      Obj(map["event" := Str("showAlert"), "context" := Str(context)])
    case ShowOk(context) =>
      Obj(map["event" := Str("showOk"), "context" := Str(context)])
    case SendToInspector(action, target, payload) =>
      Obj(map["action" := OptStr(action), "context" := OptStr(target),
              "payload" := InspectorValue(payload), "event" := Str("sendToPropertyInspector")])
    case OpenUrl(url) =>
      Obj(map["event" := Str("openUrl"), "payload" := Obj(map["url" := Str(url)])])
  }

  /** Reads a frame back into the command it was written for. */
  function ReadFrame(v: Value): Option<Command> {
    var event := Get(v, "event");
    var context := Get(v, "context");
    var payload := Get(v, "payload");
    if !event.Str? then None
    else if event.s == "getGlobalSettings" && context.Str? then
      Some(GetGlobalSettings(context.s))
    else if event.s == "setGlobalSettings" && context.Str? then
      Some(SetGlobalSettings(context.s, payload))
    else if event.s == "setTitle" && context.Str? && Get(payload, "title").Str? then
      Some(SetTitle(context.s, Get(payload, "title").s))
    else if event.s == "setImage" && context.Str? && Get(payload, "image").Str? then
      match Icons.Unwrap(Get(payload, "image").s)
      case Some(icon) => Some(SetImage(context.s, icon))
      case None => None
    else if event.s == "setState" && context.Str? && Get(payload, "state").Num? then
      Some(SetState(context.s, Get(payload, "state").n))
    else if event.s == "setSettings" && context.Str? then
      Some(SetSettings(context.s, payload))
    else if event.s == "showAlert" && context.Str? then
      Some(ShowAlert(context.s))
    else if event.s == "showOk" && context.Str? then
      Some(ShowOk(context.s))
    else if event.s == "sendToPropertyInspector" then
      match (ReadOptStr(Get(v, "action")), ReadOptStr(context), ReadInspector(payload))
      case (Some(a), Some(c), Some(p)) => Some(SendToInspector(a, c, p))
      case _ => None
    else if event.s == "openUrl" && Get(payload, "url").Str? then
      Some(OpenUrl(Get(payload, "url").s))
    else None
  }

  lemma InspectorRoundTrip(p: Inspector)
    ensures ReadInspector(InspectorValue(p)) == Some(p)
  {
    if p.DataList? {
      EntriesRoundTrip(p.lists.scenarios);
      EntriesRoundTrip(p.lists.devices);
    }
  }

  lemma ImageRoundTrip(context: string, icon: Icons.Icon)
    ensures ReadFrame(Frame(SetImage(context, icon))) == Some(SetImage(context, icon))
  {
    Icons.UnwrapWrap(icon);
  }

  lemma InspectorFrameRoundTrip(action: Option<string>, target: Option<string>, payload: Inspector)
    ensures ReadFrame(Frame(SendToInspector(action, target, payload))) == Some(SendToInspector(action, target, payload))
  {
    InspectorRoundTrip(payload);
  }

  /** Every outbound frame carries enough to recover the command it encodes. */
  lemma FrameRoundTrip(c: Command)
    ensures ReadFrame(Frame(c)) == Some(c)
  {
    match c {
      case SetImage(context, icon) =>
        ImageRoundTrip(context, icon);
      case SendToInspector(action, target, payload) =>
        InspectorFrameRoundTrip(action, target, payload);
      case _ =>
    }
  }
}

=== FILE: icons.dfy ===
/** The icon classifier: a device type string and an on/off flag choose a
    background colour and a glyph by first-match-wins keyword tests over the
    lower-cased type, and the pair is wrapped into an image data URI. */
module Icons {
  import opened Js

  // ---------------------------------------------------------------- text

  function LowerChar(c: char): (r: char)
    ensures !('A' <= r <= 'Z')
  {
    if 'A' <= c <= 'Z' then (c as int - 'A' as int + 'a' as int) as char else c
  }

  /** ASCII `toLowerCase`. */
  function Lower(s: string): (r: string)
    ensures |r| == |s|
    ensures forall i :: 0 <= i < |s| ==> r[i] == LowerChar(s[i])
  {
    if s == [] then [] else [LowerChar(s[0])] + Lower(s[1..])
  }

  /** `s.includes(k)`. */
  predicate Contains(s: string, k: string) {
    k <= s || (|s| > 0 && Contains(s[1..], k))
  }

  predicate OccursAt(s: string, k: string, i: int) {
    0 <= i && i + |k| <= |s| && s[i..i + |k|] == k
  }

  lemma {:induction false} OccursAtContains(s: string, k: string, i: int)
    requires OccursAt(s, k, i)
    ensures Contains(s, k)
    decreases i
  {
    if i == 0 {
      assert s[..|k|] == k;
    } else {
      assert s[1..][i - 1..i - 1 + |k|] == s[i..i + |k|];
      OccursAtContains(s[1..], k, i - 1);
    }
  }

  lemma {:induction false} ContainsOccurs(s: string, k: string)
    requires Contains(s, k)
    ensures exists i :: OccursAt(s, k, i)
  {
    if k <= s {
      assert OccursAt(s, k, 0);
    } else {
      ContainsOccurs(s[1..], k);
      var i :| OccursAt(s[1..], k, i);
      assert s[1..][i..i + |k|] == s[i + 1..i + 1 + |k|];
      assert OccursAt(s, k, i + 1);
    }
  }

  /** `Contains` agrees with the positional definition of a substring. */
  lemma ContainsIsSubstring(s: string, k: string)
    ensures Contains(s, k) <==> exists i :: OccursAt(s, k, i)
  {
    if Contains(s, k) {
      ContainsOccurs(s, k);
    }
    forall i | OccursAt(s, k, i) ensures Contains(s, k) {
      OccursAtContains(s, k, i);
    }
  }

  /** A keyword with a character the text lacks does not occur in it. */
  lemma {:induction false} MissingCharAbsent(s: string, k: string, c: char)
    requires c in k && c !in s
    ensures !Contains(s, k)
  {
    if s != [] {
      assert c !in s[1..] by { assert s == [s[0]] + s[1..]; }
      MissingCharAbsent(s[1..], k, c);
    }
  }

  /** An occurrence of a keyword puts its first two characters next to
      each other somewhere in the text. */
  lemma {:induction false} OccurrenceHasPair(s: string, k: string)
    requires |k| >= 2
    ensures Contains(s, k) ==> exists i :: 0 <= i < |s| - 1 && s[i] == k[0] && s[i + 1] == k[1]
  {
    if Contains(s, k) {
      if k <= s {
        assert s[0] == k[0] && s[1] == k[1];
      } else {
        OccurrenceHasPair(s[1..], k);
        var i :| 0 <= i < |s[1..]| - 1 && s[1..][i] == k[0] && s[1..][i + 1] == k[1];
        assert s[i + 1] == k[0] && s[i + 2] == k[1];
      }
    }
  }

  /** Every string mentioning "vacuum" mentions "ac" ("v-ac-uum"). */
  lemma {:induction false} VacuumContainsAc(s: string)
    requires Contains(s, "vacuum")
    ensures Contains(s, "ac")
  {
    if "vacuum" <= s {
      assert "ac" <= s[1..];
    } else {
      VacuumContainsAc(s[1..]);
    }
  }

  /** Lower-casing leaves a string with no capital letter unchanged. */
  lemma LowerOfLowercase(s: string)
    requires forall i :: 0 <= i < |s| ==> !('A' <= s[i] <= 'Z')
    ensures Lower(s) == s
  {
  }

  lemma {:induction false} LowerIdempotent(s: string)
    ensures Lower(Lower(s)) == Lower(s)
  {
    if s != [] {
      LowerIdempotent(s[1..]);
    }
  }

  // ---------------------------------------------------------------- colours

  const Off := "#1a1a1a"
  const Amber := "#F59E0B"
  const Blue := "#3B82F6"
  const Red := "#EF4444"
  const Cyan := "#06B6D4"
  const CyanDark := "#0891B2"
  const Purple := "#A855F7"
  const Green := "#10B981"

  /** Background of a lower-cased type: dark when off, otherwise the colour
      of the first keyword group that matches, amber when none does. */
  function Background(t: string, isOn: bool): string {
    if !isOn then Off
    else if Contains(t, "socket") || Contains(t, "switch") then Blue
    else if Contains(t, "kettle") || Contains(t, "coffee") then Red
    else if Contains(t, "thermostat") || Contains(t, "ac") || Contains(t, "climate") then Cyan
    else if Contains(t, "fridge") then CyanDark
    else if Contains(t, "sensor") then Purple
    else if Contains(t, "curtain") || Contains(t, "gate") then Green
    else Amber
  }

  // ---------------------------------------------------------------- glyphs

  datatype Glyph =
    | Light | Socket | Switch | Thermometer | Snowflake | Fan | Droplets
    | Kettle | Fridge | Robot | Tv | Blinds | Door | Eye | Bolt

  /** Glyph of a lower-cased type: the first keyword that matches wins,
      the bolt is the fallback. */
  function GlyphFor(t: string): Glyph {
    if Contains(t, "light") then Light
    else if Contains(t, "socket") then Socket
    else if Contains(t, "switch") then Switch
    else if Contains(t, "thermostat") || Contains(t, "heater") then Thermometer
    else if Contains(t, "ac") || Contains(t, "climate") then Snowflake
    else if Contains(t, "fan") then Fan
    else if Contains(t, "humidifier") || Contains(t, "purifier") || Contains(t, "water") || Contains(t, "leak") then Droplets
    else LaterGlyph(t)
  }

  /** The second half of the same chain, from the kettle test on. */
  function LaterGlyph(t: string): Glyph {
    if Contains(t, "kettle") || Contains(t, "coffee") then Kettle
    else if Contains(t, "fridge") then Fridge
    else if Contains(t, "vacuum") then Robot
    else if Contains(t, "tv") then Tv
    else if Contains(t, "curtain") || Contains(t, "blind") then Blinds
    else if Contains(t, "door") || Contains(t, "gate") then Door
    else if Contains(t, "sensor") || Contains(t, "motion") then Eye
    else Bolt
  }

  /** A sufficient condition for a lower-cased type to match no glyph
      keyword: every keyword except "tv" and "door" has one of these letters. */
  predicate FallsThrough(t: string) {
    && 'l' !in t && 'k' !in t && 'w' !in t && 'm' !in t && 'a' !in t
    && 'f' !in t && 'u' !in t && 'b' !in t && 'g' !in t && 'n' !in t
    && !Contains(t, "tv") && !Contains(t, "door")
  }

  lemma {:induction false} GlyphFallback(t: string)
    requires FallsThrough(t)
    ensures GlyphFor(t) == Bolt
  {
    MissingCharAbsent(t, "light", 'l');
    MissingCharAbsent(t, "socket", 'k');
    MissingCharAbsent(t, "switch", 'w');
    MissingCharAbsent(t, "thermostat", 'm');
    MissingCharAbsent(t, "heater", 'a');
    MissingCharAbsent(t, "ac", 'a');
    MissingCharAbsent(t, "climate", 'a');
    MissingCharAbsent(t, "fan", 'f');
    MissingCharAbsent(t, "humidifier", 'u');
    MissingCharAbsent(t, "purifier", 'u');
    MissingCharAbsent(t, "water", 'w');
    MissingCharAbsent(t, "leak", 'k');
    MissingCharAbsent(t, "kettle", 'k');
    MissingCharAbsent(t, "coffee", 'f');
    MissingCharAbsent(t, "fridge", 'f');
    MissingCharAbsent(t, "vacuum", 'a');
    MissingCharAbsent(t, "curtain", 'a');
    MissingCharAbsent(t, "blind", 'b');
    MissingCharAbsent(t, "gate", 'g');
    MissingCharAbsent(t, "sensor", 'n');
    MissingCharAbsent(t, "motion", 'm');
  }

  /** The vacuum test comes after the "ac" test, so the robot glyph is dead. */
  lemma RobotUnreachable(t: string)
    ensures GlyphFor(t) != Robot
  {
    if Contains(t, "vacuum") {
      VacuumContainsAc(t);
    }
  }

  // ---------------------------------------------------------------- reference table

  /** A keyword group and what it selects. */
  datatype Rule<T> = Rule(keywords: seq<string>, choice: T)

  predicate MatchesAny(t: string, keywords: seq<string>) {
    |keywords| > 0 && (Contains(t, keywords[0]) || MatchesAny(t, keywords[1..]))
  }

  lemma {:induction false} MatchesAnyIff(t: string, keywords: seq<string>)
    ensures MatchesAny(t, keywords) <==> exists i :: 0 <= i < |keywords| && Contains(t, keywords[i])
  {
    if |keywords| > 0 {
      MatchesAnyIff(t, keywords[1..]);
      if exists i :: 0 <= i < |keywords| && Contains(t, keywords[i]) {
        var i :| 0 <= i < |keywords| && Contains(t, keywords[i]);
        if i > 0 {
          assert keywords[1..][i - 1] == keywords[i];
        }
      }
      if MatchesAny(t, keywords[1..]) {
        var i :| 0 <= i < |keywords[1..]| && Contains(t, keywords[1..][i]);
        assert Contains(t, keywords[i + 1]);
      }
    }
  }

  /** First-match-wins selection over an ordered rule table. */
  function FirstMatch<T>(rules: seq<Rule<T>>, t: string, fallback: T): T {
    if |rules| == 0 then fallback
    else if MatchesAny(t, rules[0].keywords) then rules[0].choice
    else FirstMatch(rules[1..], t, fallback)
  }

  /** `FirstMatch` picks the rule at the first index whose keywords match. */
  lemma {:induction false} FirstMatchAt<T>(rules: seq<Rule<T>>, t: string, fallback: T, i: int)
    requires 0 <= i < |rules| && MatchesAny(t, rules[i].keywords)
    requires forall j :: 0 <= j < i ==> !MatchesAny(t, rules[j].keywords)
    ensures FirstMatch(rules, t, fallback) == rules[i].choice
    decreases i
  {
    if i > 0 {
      assert !MatchesAny(t, rules[0].keywords);
      assert forall j :: 0 <= j < i - 1 ==> rules[1..][j] == rules[j + 1];
      FirstMatchAt(rules[1..], t, fallback, i - 1);
    }
  }

  /** `FirstMatch` falls back when no rule matches. */
  lemma {:induction false} FirstMatchNone<T>(rules: seq<Rule<T>>, t: string, fallback: T)
    requires forall j :: 0 <= j < |rules| ==> !MatchesAny(t, rules[j].keywords)
    ensures FirstMatch(rules, t, fallback) == fallback
  {
    if |rules| > 0 {
      assert !MatchesAny(t, rules[0].keywords);
      assert forall j :: 0 <= j < |rules| - 1 ==> rules[1..][j] == rules[j + 1];
      FirstMatchNone(rules[1..], t, fallback);
    }
  }

  /** A table split in two: the first part decides, and falls back to
      what the second part decides. */
  lemma {:induction false} FirstMatchAppend<T>(a: seq<Rule<T>>, b: seq<Rule<T>>, t: string, fallback: T)
    ensures FirstMatch(a + b, t, fallback) == FirstMatch(a, t, FirstMatch(b, t, fallback))
  {
    if |a| > 0 {
      assert (a + b)[0] == a[0];
      assert (a + b)[1..] == a[1..] + b;
      FirstMatchAppend(a[1..], b, t, fallback);
    } else {
      assert a + b == b;
    }
  }

  lemma Step<T>(rules: seq<Rule<T>>, t: string, fallback: T)
    requires |rules| > 0
    ensures FirstMatch(rules, t, fallback)
         == if MatchesAny(t, rules[0].keywords) then rules[0].choice else FirstMatch(rules[1..], t, fallback)
  {
  }

  lemma Any1(t: string, a: string)
    ensures MatchesAny(t, [a]) <==> Contains(t, a)
  {
    assert [a][1..] == [];
  }

  lemma Any2(t: string, a: string, b: string)
    ensures MatchesAny(t, [a, b]) <==> Contains(t, a) || Contains(t, b)
  {
    assert [a, b][1..] == [b];
    Any1(t, b);
  }

  lemma Any3(t: string, a: string, b: string, c: string)
    ensures MatchesAny(t, [a, b, c]) <==> Contains(t, a) || Contains(t, b) || Contains(t, c)
  {
    assert [a, b, c][1..] == [b, c];
    Any2(t, b, c);
  }

  lemma Any4(t: string, a: string, b: string, c: string, d: string)
    ensures MatchesAny(t, [a, b, c, d]) <==> Contains(t, a) || Contains(t, b) || Contains(t, c) || Contains(t, d)
  {
    assert [a, b, c, d][1..] == [b, c, d];
    Any3(t, b, c, d);
  }

  const ColourRules: seq<Rule<string>> := [
    Rule(["socket", "switch"], Blue),
    Rule(["kettle", "coffee"], Red),
    Rule(["thermostat", "ac", "climate"], Cyan),
    Rule(["fridge"], CyanDark),
    Rule(["sensor"], Purple),
    Rule(["curtain", "gate"], Green)
  ]

  const GlyphRules: seq<Rule<Glyph>> := EarlyGlyphRules + LaterGlyphRules

  const EarlyGlyphRules: seq<Rule<Glyph>> := [
    Rule(["light"], Light),
    Rule(["socket"], Socket),
    Rule(["switch"], Switch),
    Rule(["thermostat", "heater"], Thermometer),
    Rule(["ac", "climate"], Snowflake),
    Rule(["fan"], Fan),
    Rule(["humidifier", "purifier", "water", "leak"], Droplets)
  ]

  const LaterGlyphRules: seq<Rule<Glyph>> := [
    Rule(["kettle", "coffee"], Kettle),
    Rule(["fridge"], Fridge),
    Rule(["vacuum"], Robot),
    Rule(["tv"], Tv),
    Rule(["curtain", "blind"], Blinds),
    Rule(["door", "gate"], Door),
    Rule(["sensor", "motion"], Eye)
  ]

  /** The background if-chain is the first-match table over the colour groups. */
  lemma BackgroundIsFirstMatch(t: string)
    ensures Background(t, true) == FirstMatch(ColourRules, t, Amber)
  {
    var r0 := ColourRules;
    Any2(t, "socket", "switch");
    Any2(t, "kettle", "coffee");
    Any3(t, "thermostat", "ac", "climate");
    Any1(t, "fridge");
    Any1(t, "sensor");
    Any2(t, "curtain", "gate");
    assert r0[0] == Rule(["socket", "switch"], Blue);
    Step(r0, t, Amber);
    var r1 := r0[1..];
    assert r1[0] == Rule(["kettle", "coffee"], Red);
    Step(r1, t, Amber);
    var r2 := r1[1..];
    assert r2[0] == Rule(["thermostat", "ac", "climate"], Cyan);
    Step(r2, t, Amber);
    var r3 := r2[1..];
    assert r3[0] == Rule(["fridge"], CyanDark);
    Step(r3, t, Amber);
    var r4 := r3[1..];
    assert r4[0] == Rule(["sensor"], Purple);
    Step(r4, t, Amber);
    var r5 := r4[1..];
    assert r5[0] == Rule(["curtain", "gate"], Green);
    Step(r5, t, Amber);
    var r6 := r5[1..];
    assert r6 == [];
  }

  lemma EarlyGlyphIsFirstMatch(t: string)
    ensures GlyphFor(t) == FirstMatch(EarlyGlyphRules, t, LaterGlyph(t))
  {
    var r0 := EarlyGlyphRules;
    var fb := LaterGlyph(t);
    Any1(t, "light");
    assert r0[0] == Rule(["light"], Light);
    Step(r0, t, fb);
    var r1 := r0[1..];
    Any1(t, "socket");
    assert r1[0] == Rule(["socket"], Socket);
    Step(r1, t, fb);
    var r2 := r1[1..];
    Any1(t, "switch");
    assert r2[0] == Rule(["switch"], Switch);
    Step(r2, t, fb);
    var r3 := r2[1..];
    Any2(t, "thermostat", "heater");
    assert r3[0] == Rule(["thermostat", "heater"], Thermometer);
    Step(r3, t, fb);
    var r4 := r3[1..];
    Any2(t, "ac", "climate");
    assert r4[0] == Rule(["ac", "climate"], Snowflake);
    Step(r4, t, fb);
    var r5 := r4[1..];
    Any1(t, "fan");
    assert r5[0] == Rule(["fan"], Fan);
    Step(r5, t, fb);
    var r6 := r5[1..];
    Any4(t, "humidifier", "purifier", "water", "leak");
    assert r6[0] == Rule(["humidifier", "purifier", "water", "leak"], Droplets);
    Step(r6, t, fb);
    var r7 := r6[1..];
    assert r7 == [];
  }

  lemma LaterGlyphIsFirstMatch(t: string)
    ensures LaterGlyph(t) == FirstMatch(LaterGlyphRules, t, Bolt)
  {
    var r0 := LaterGlyphRules;
    Any2(t, "kettle", "coffee");
    assert r0[0] == Rule(["kettle", "coffee"], Kettle);
    Step(r0, t, Bolt);
    var r1 := r0[1..];
    Any1(t, "fridge");
    assert r1[0] == Rule(["fridge"], Fridge);
    Step(r1, t, Bolt);
    var r2 := r1[1..];
    Any1(t, "vacuum");
    assert r2[0] == Rule(["vacuum"], Robot);
    Step(r2, t, Bolt);
    var r3 := r2[1..];
    Any1(t, "tv");
    assert r3[0] == Rule(["tv"], Tv);
    Step(r3, t, Bolt);
    var r4 := r3[1..];
    Any2(t, "curtain", "blind");
    assert r4[0] == Rule(["curtain", "blind"], Blinds);
    Step(r4, t, Bolt);
    var r5 := r4[1..];
    Any2(t, "door", "gate");
    assert r5[0] == Rule(["door", "gate"], Door);
    Step(r5, t, Bolt);
    var r6 := r5[1..];
    Any2(t, "sensor", "motion");
    assert r6[0] == Rule(["sensor", "motion"], Eye);
    Step(r6, t, Bolt);
    var r7 := r6[1..];
    assert r7 == [];
  }

  /** The glyph if-chain is the first-match table over the glyph groups. */
  lemma GlyphIsFirstMatch(t: string)
    ensures GlyphFor(t) == FirstMatch(GlyphRules, t, Bolt)
  {
    EarlyGlyphIsFirstMatch(t);
    LaterGlyphIsFirstMatch(t);
    FirstMatchAppend(EarlyGlyphRules, LaterGlyphRules, t, Bolt);
  }

  // ---------------------------------------------------------------- icons

  datatype Icon = Icon(glyph: Glyph, background: string)

  /** `getIcon(type, isOn)`. */
  function GetIcon(kind: string, isOn: bool): (r: Icon)
    ensures !isOn ==> r.background == Off
    ensures isOn ==> r.background == FirstMatch(ColourRules, Lower(kind), Amber)
    ensures r.glyph == FirstMatch(GlyphRules, Lower(kind), Bolt)
    ensures Contains(Lower(kind), "light") ==> r.glyph == Light
    ensures r.glyph != Robot
  {
    var t := Lower(kind);
    BackgroundIsFirstMatch(t);
    GlyphIsFirstMatch(t);
    RobotUnreachable(t);
    Icon(GlyphFor(t), Background(t, isOn))
  }

  /** A type that matches no keyword gets the bolt, on amber when on and
      on the dark background when off. */
  lemma FallbackIcon(kind: string, isOn: bool)
    requires forall j :: 0 <= j < |GlyphRules| ==> !MatchesAny(Lower(kind), GlyphRules[j].keywords)
    requires forall j :: 0 <= j < |ColourRules| ==> !MatchesAny(Lower(kind), ColourRules[j].keywords)
    ensures GetIcon(kind, isOn) == Icon(Bolt, if isOn then Amber else Off)
  {
    FirstMatchNone(GlyphRules, Lower(kind), Bolt);
    FirstMatchNone(ColourRules, Lower(kind), Amber);
  }

  /** A lower-case type free of the letters the glyph keywords need shows
      the bolt on the dark background when off. */
  lemma FallsThroughIcon(kind: string)
    requires forall i :: 0 <= i < |kind| ==> !('A' <= kind[i] <= 'Z')
    requires FallsThrough(kind)
    ensures GetIcon(kind, false) == Icon(Bolt, Off)
  {
    LowerOfLowercase(kind);
    GlyphFallback(kind);
  }

  /** The glyph depends on the type only, never on the on/off flag. */
  lemma GlyphIgnoresState(kind: string, a: bool, b: bool)
    ensures GetIcon(kind, a).glyph == GetIcon(kind, b).glyph
  {
  }

  /** Classification is case-insensitive. */
  lemma CaseInsensitive(kind: string, isOn: bool)
    ensures GetIcon(kind, isOn) == GetIcon(Lower(kind), isOn)
  {
    LowerIdempotent(kind);
  }

  // ---------------------------------------------------------------- data URI

  const DataUriPrefix := "data:image/svg+xml;base64,"

  const Glyphs: seq<Glyph> := [Light, Socket, Switch, Thermometer, Snowflake, Fan, Droplets,
                               Kettle, Fridge, Robot, Tv, Blinds, Door, Eye, Bolt]

  function GlyphCode(g: Glyph): (c: char)
    ensures 'a' <= c < ('a' as int + |Glyphs|) as char && Glyphs[c as int - 'a' as int] == g
  {
    match g
    case Light => 'a'
    case Socket => 'b'
    case Switch => 'c'
    case Thermometer => 'd'
    case Snowflake => 'e'
    case Fan => 'f'
    case Droplets => 'g'
    case Kettle => 'h'
    case Fridge => 'i'
    case Robot => 'j'
    case Tv => 'k'
    case Blinds => 'l'
    case Door => 'm'
    case Eye => 'n'
    case Bolt => 'o'
  }

  /** `wrap(content, bgColor)`: the SVG and its base64 encoding are replaced by
      an injective token (glyph code, then colour) behind the real prefix. */
  function Wrap(i: Icon): (r: string)
    ensures DataUriPrefix <= r
  {
    DataUriPrefix + [GlyphCode(i.glyph)] + i.background
  }

  function Unwrap(uri: string): Option<Icon> {
    if |uri| <= |DataUriPrefix| || !(DataUriPrefix <= uri) then None
    else
      var code := uri[|DataUriPrefix|] as int - 'a' as int;
      if 0 <= code < |Glyphs| then Some(Icon(Glyphs[code], uri[|DataUriPrefix| + 1..])) else None
  }

  /** The data URI determines the icon it was made from. */
  lemma UnwrapWrap(i: Icon)
    ensures Unwrap(Wrap(i)) == Some(i)
  {
    var uri := Wrap(i);
    assert uri[|DataUriPrefix|] == GlyphCode(i.glyph);
    assert uri[|DataUriPrefix| + 1..] == i.background;
  }
}

=== FILE: js.dfy ===
/** The slice of JavaScript value semantics the plugin relies on: parsed JSON
    values, truthiness, property reads that throw on null/undefined, and the
    fields an object spread copies. */
module Js {

  datatype Option<+T> = None | Some(value: T)

  /** Why a handler stops early: a thrown TypeError (reading a property of
      null or undefined, calling something that is not a function), or one of
      the two ways the HTTP helper rejects. */
  datatype Failure =
    | TypeError
    | HttpStatus(status: int, body: string)
    | Network(cause: string)

  datatype Result<+T> = Ok(value: T) | Err(error: Failure)

  /** A parsed JSON value, plus `undefined` for a missing property.
      Numbers are integers: no value the plugin reads is fractional. */
  datatype Value =
    | Undefined
    | Null
    | Bool(b: bool)
    | Num(n: int)
    | Str(s: string)
    | Arr(items: seq<Value>)
    | Obj(fields: map<string, Value>)

  /** JavaScript truthiness (`if (v)`, `!v`, `v && ...`). */
  predicate Truthy(v: Value) {
    match v
    case Undefined => false
    case Null => false
    case Bool(b) => b
    case Num(n) => n != 0
    case Str(s) => s != ""
    case Arr(_) => true
    case Obj(_) => true
  }

  predicate Nullish(v: Value) {
    v.Undefined? || v.Null?
  }

  /** `v.k` on a value that is neither null nor undefined: only objects
      carry the fields the plugin reads; anything else yields undefined. */
  function Get(v: Value, k: string): Value {
    if v.Obj? && k in v.fields then v.fields[k] else Undefined
  }

  /** `v.k` in general: throws a TypeError on null and undefined. */
  function Prop(v: Value, k: string): (r: Result<Value>)
    ensures r.Err? <==> Nullish(v)
    ensures r.Ok? ==> r.value == Get(v, k)
  {
    if Nullish(v) then Err(TypeError) else Ok(Get(v, k))
  }

  /** The own fields `{...v}` and `Object.assign(target, v)` copy out of `v`. */
  function Fields(v: Value): map<string, Value> {
    if v.Obj? then v.fields else map[]
  }

  /** `map[k]` where a missing key reads as undefined. */
  function Lookup(m: map<string, Value>, k: string): Value {
    if k in m then m[k] else Undefined
  }
}
